=== FILE: README.md ===
# LLM output evaluator: a Dafny model of the rule pipeline

The system scores one answer produced by a language model. A request
carries the model's `output` and, optionally, a task type, the prompt, a
reference answer and metadata. Five deterministic rules judge the output.
Each rule gives a `RuleResult`: rule id, rule name, passed, a score in
[0, 1] and an explanation.

- **Format family**
  - *empty output*: the trimmed output is not empty.
  - *JSON format*: when the task type or the prompt asks for JSON, the trimmed output must parse.
  - *length constraint*: a limit such as "50 words", "200 characters" or "3 sentences" is taken from the prompt. Output over the limit gets partial credit, `max(0, 1 - excess/limit)`.
- **Content family**
  - *required keywords*: keywords are taken from quoted "must include '…'" and "make sure to mention '…'" phrases and from an "include the following …" list. The score is the share of them found in the output.
  - *forbidden phrases*: eleven AI-disclaimer phrases are searched for. Each one found costs 0.3.

The evaluator runs the rules in a fixed order. A rule that raises is turned
into a failed result with score 0. The evaluator then averages the scores
per family, and averages the family scores into an overall score. It lists
the ids of the failing rules and maps each one to its explanation.

Modules:

- `Wrappers` (wrappers.dfy): `Option` and `Result`.
- `Text` (text.dfy): the ASCII string operations the rules use.
  - `lower`, `strip` and `split()`;
  - substring search;
  - the sentence split on runs of `.`, `!` and `?`;
  - decimal rendering.
- `Schemas` (schemas.dfy): the request, result and response records.
  - The [0, 1] score bound is a subset type `Score`.
  - Smart constructors fail where record validation fails.
- `BaseRule` (base_rule.dfy):
  - the five rules as a closed datatype, with their constant ids and names;
  - the exceptions a rule can raise;
  - `_create_result`.
- `FormatRules` and `ContentRules` (format_rules.dfy, content_rules.dfy):
  - each rule's verdict as a function returning a result or the exception raised;
  - where the code is a loop, the loop itself as a method proved equal to that function.
- `Averages` (averages.dfy): sums and means over lists and over the values of a map.
- `Evaluation` (evaluator.dfy):
  - the runner, aggregation and failure collection as functions;
  - the `Evaluator` class, whose methods are the loops of the original, each proved equal to those functions;
  - lemmas about the five registered rules together.

In this model only one path in the rules raises. The length rule divides by
zero when the extracted limit is 0 and the measured count is positive; a
limit of "0 words" against the output "   " measures 0 words and passes. The
model carries that exception as `Failure(ZeroDivisionError)`. The runner
turns it into the failed result "Rule execution failed: division by zero".
The source has two more raising paths, listed under "Left out": `json.loads`
can raise an error other than a decode error, and `int()` refuses a digit
run that is too long. Both would reach the same runner and be absorbed in
the same way.

## Model

| member | source | states |
|---|---|---|
| Schemas.MakeRuleResult | app/schemas/evaluation.py:49-54 | a rule result is built exactly when 0 ≤ score ≤ 1, and then holds the given fields |
| Schemas.MakeResponse | app/schemas/evaluation.py:57-100 | a response is built exactly when 0 ≤ overall score ≤ 1, and then holds every given field |
| BaseRule.IdsDistinct | app/rules/format_rules.py:11-12 | every rule id is non-empty, and two rules have the same id only if they are the same rule (the ids are at format_rules.py:11-12, 39-40 and 91-92 and content_rules.py:9-10 and 106-107) |
| BaseRule.CreateResult | app/rules/base_rule.py:23-35 | the result carries the calling rule's own id and name, with passed, score and explanation copied through; it fails (validation error) exactly when the score is outside [0, 1] |
| Text.StripEmptyIffAllSpace | app/rules/format_rules.py:19-21 | `output.strip()` is empty exactly when every character is whitespace |
| Text.NoWordsIffBlank | app/rules/format_rules.py:152-153 | `output.split()` yields no tokens exactly when the output is all whitespace |
| Text.NoSentencesIffOnlySeparators | app/rules/format_rules.py:158-160 | the sentence count is 0 exactly when the output holds nothing but whitespace and `.`, `!`, `?` |
| FormatRules.EvaluateEmptyOutput | app/rules/format_rules.py:18-32 | fails with 0.0 exactly when the output is blank; otherwise passes with 1.0 and reports the trimmed length; stamped with the rule's id and name |
| FormatRules.ExpectsJson | app/rules/format_rules.py:72-84 | the loop with early return computes "task type contains json, or the lower-cased prompt contains one of the four cues" |
| FormatRules.JsonExpectedWithoutTruthiness | app/rules/format_rules.py:73-76 | the emptiness guards on task type and prompt do not change the answer |
| FormatRules.JsonFormatVerdict | app/rules/format_rules.py:46-70 | passes exactly when JSON is not expected or the trimmed output parses; score 1.0/0.0 accordingly; a failure explains "Invalid JSON format: " followed by the decoder's message |
| FormatRules.EvaluateJsonFormat | app/rules/format_rules.py:46-70 | the method (cue loop, then decoder) returns exactly the verdict above |
| FormatRules.JsonIgnoresOutputWhenNotExpected | app/rules/format_rules.py:47-54 | when JSON is not expected, the verdict is the same whatever the output |
| FormatRules.FindNumber | app/rules/format_rules.py:137 | the search returns the leftmost position where digits, optional whitespace and the unit follow, or none when there is no such position |
| FormatRules.SearchLimit | app/rules/format_rules.py:137-139 | a unit's pattern matches exactly when the prompt mentions it, and the limit is the integer value of the digits at the leftmost match |
| FormatRules.ExtractLengthConstraint | app/rules/format_rules.py:134-149 | words are tried first, then characters, then sentences, and the first unit whose pattern matches wins; none exactly when no unit is mentioned |
| FormatRules.Measure | app/rules/format_rules.py:151-162 | characters is the raw length; the word count is 0 exactly for blank output, and the sentence count exactly for output of separators only |
| FormatRules.ExcessScore | app/rules/format_rules.py:125-126 | the partial credit lies in [0, 1); it is 0 exactly when actual ≥ 2·limit |
| FormatRules.ExcessScoreMonotone | app/rules/format_rules.py:125-126 | a longer output never scores more against the same limit |
| FormatRules.ExcessScoreExample | app/rules/format_rules.py:125-126 | 6 against a limit of 5 scores 0.8 |
| FormatRules.LengthConstraintVerdict | app/rules/format_rules.py:98-132 | passes with 1.0 without a prompt, without a constraint, or within the limit; over a positive limit it fails with the excess credit; over a zero limit it raises a division by zero |
| FormatRules.LengthRaisesOnlyOnZeroLimit | app/rules/format_rules.py:118-126 | the rule raises exactly when the extracted limit is 0 and the measured output is positive, and then the error is the division by zero |
| ContentRules.QuotedAt | app/rules/content_rules.py:62 | `['"]([^'"]+)['"]` at a position: a quote, at least one non-quote character, then a quote; the end it gives is that closing quote |
| ContentRules.QuotedAtComplete | app/rules/content_rules.py:62 | the quoted part matches at a position exactly when a quote stands there and a later quote closes a non-empty run of non-quote characters |
| ContentRules.MatchQuotedAt | app/rules/content_rules.py:61-71 | a match at a position captures a quote-free text that starts after that position and ends before the end of the prompt |
| ContentRules.MatchQuotedAtComplete | app/rules/content_rules.py:61-71 | the quoted pattern matches at a position exactly when one of its literal prefixes is followed there by a quoted text, and it captures the quoted text after the first such prefix in the regex's order of preference |
| ContentRules.FirstQuoted | app/rules/content_rules.py:61-71 | the search finds the leftmost position where the pattern matches, and finds nothing exactly when the pattern matches nowhere |
| ContentRules.FirstQuotedIsLeftmost | app/rules/content_rules.py:61-71 | any matching position with no match before it is the one the search finds |
| ContentRules.FindAllQuoted | app/rules/content_rules.py:61-73 | every captured keyword is non-empty, holds no quote and occurs in the prompt itself (with its case kept); there are none exactly when the pattern matches nowhere; otherwise the first is the capture of the leftmost match |
| ContentRules.LastNonNewline | app/rules/content_rules.py:77 | giving back the `\s*` run ends at the last non-newline position of the range, with only newlines after it; there is none exactly when the range holds only newlines |
| ContentRules.SpaceThenLine | app/rules/content_rules.py:77 | `\s*([^\n]+)` matches at a position exactly when some character at or after it is not a newline, and the capture then starts at such a character |
| ContentRules.SpaceThenLineStart | app/rules/content_rules.py:77 | the capture starts after the whitespace run when a non-space character ends that run, or at the last non-newline of a trailing whitespace run, after which only newlines remain |
| ContentRules.SpaceThenLineExample | app/rules/content_rules.py:77 | on " \nfoo" the capture skips the blank line and is "foo", from position 2 to the end |
| ContentRules.LineEnd | app/rules/content_rules.py:77 | `[^\n]+` runs to the first newline at or after its start, or to the end of the text |
| ContentRules.MatchFollowingAt | app/rules/content_rules.py:75-79 | a match at a position captures a non-empty, newline-free part of the line at or after that position |
| ContentRules.MatchFollowingAtComplete | app/rules/content_rules.py:75-79 | the "include the following" pattern matches at a position exactly when one of its literal prefixes is followed there by blanks and a non-newline character, and it captures the rest of the line after the first such prefix in the regex's order of preference |
| ContentRules.FirstFollowing | app/rules/content_rules.py:75-79 | the search finds the leftmost position where the list pattern matches, and finds nothing exactly when it matches nowhere |
| ContentRules.SearchFollowing | app/rules/content_rules.py:75-79 | `re.search` gives the match at the leftmost matching position, and no match exactly when the pattern matches nowhere |
| ContentRules.FollowingTerms | app/rules/content_rules.py:75-83 | every listed term occurs in the prompt and holds no comma; there are none exactly when the pattern does not match; otherwise they are the cleaned comma-separated pieces of the captured line, taken from the prompt itself |
| ContentRules.RawKeywords | app/rules/content_rules.py:58-83 | every keyword from the three patterns occurs in the prompt |
| ContentRules.RawKeywordsNone | app/rules/content_rules.py:58-83 | the prompt yields no keyword exactly when none of the three patterns matches anywhere in it |
| ContentRules.RawKeywordsExample | app/rules/content_rules.py:61-65 | the prompt `You must include the word "Paris"` yields exactly the keyword "Paris", with its case kept |
| ContentRules.Dedupe | app/rules/content_rules.py:85 | the de-duplicated list has no repeats and the same elements as the input |
| ContentRules.ExtractRequiredKeywords | app/rules/content_rules.py:58-85 | the method that extends the list pattern by pattern yields the de-duplicated keywords, none repeated, each occurring in the prompt |
| ContentRules.FoundMissingPartition | app/rules/content_rules.py:33-41 | each keyword lands in exactly one of found and missing: found holds exactly the keywords whose lower case occurs in the lower-cased output |
| ContentRules.SortKeywords | app/rules/content_rules.py:33-41 | the loop builds exactly the found and missing lists, in keyword order |
| ContentRules.KeywordScore | app/rules/content_rules.py:43 | the share found lies in [0, 1] and is 1 exactly when nothing is missing |
| ContentRules.RequiredKeywordsVerdict | app/rules/content_rules.py:16-56 | passes with 1.0 when no keyword is required; otherwise scores the share found, fails exactly when some keyword is missing, and then lists only the missing ones |
| ContentRules.EvaluateRequiredKeywords | app/rules/content_rules.py:16-56 | the method (extraction, then the found/missing loop) returns exactly the verdict above |
| ContentRules.KeywordScoreOrderIndependent | app/rules/content_rules.py:85 | any two repeat-free orderings of the same keywords score the same, so the set's iteration order does not matter |
| ContentRules.Occurring | app/rules/content_rules.py:116-119 | the phrases found are at most the list, and are exactly the listed phrases that occur in the text; a list without repeats gives matches without repeats |
| ContentRules.ForbiddenListDistinct | app/rules/content_rules.py:91-103 | the list holds eleven phrases, all different |
| ContentRules.ForbiddenCount | app/rules/content_rules.py:116-122 | the number of matches the penalty is computed from is the number of distinct forbidden phrases that occur in the output |
| ContentRules.PhrasePenalty | app/rules/content_rules.py:122 | the penalty lies in [0, 1]; it is 1 exactly for no match and 0 exactly from four matches on |
| ContentRules.PhrasePenaltyValues | app/rules/content_rules.py:122 | one, two and three matches score 0.7, 0.4 and 0.1, and more matches never score better |
| ContentRules.ExplanationNamesFirstFive | app/rules/content_rules.py:124-130 | the explanation names each of the first five phrases found |
| ContentRules.ExplanationCountsRest | app/rules/content_rules.py:127-130 | beyond five matches, the explanation ends with "N more", where N is the number of unnamed phrases |
| ContentRules.ForbiddenPhrasesVerdict | app/rules/content_rules.py:113-142 | passes with 1.0 exactly when no forbidden phrase occurs in the lower-cased output; otherwise fails with the penalty for the number found |
| ContentRules.EvaluateForbiddenPhrases | app/rules/content_rules.py:113-142 | the scanning loop returns exactly the verdict above |
| ContentRules.ForbiddenIgnoresPrompt | app/rules/content_rules.py:113-119 | the verdict does not depend on the prompt |
| Averages.Mean | app/core/evaluator.py:75 | the mean of scores in [0, 1] lies in [0, 1] |
| Evaluation.EvaluateRule | app/core/evaluator.py:48-50 | a rule's result carries that rule's id and name and a non-empty explanation; of the modelled exceptions only the length rule's division by zero can occur |
| Evaluation.RunRule | app/core/evaluator.py:50 | calling the rule's `evaluate` (the loop methods) gives exactly that outcome |
| Evaluation.Absorb | app/core/evaluator.py:49-61 | a rule's own result passes through unchanged; a raised error becomes a failed result with the rule's id and name, score 0.0 and "Rule execution failed: " followed by the error message |
| Evaluation.DispatchStamps | app/rules/base_rule.py:29-32 | every result the registered rules return carries the returning rule's id and name |
| Evaluation.RunAll | app/core/evaluator.py:45-63 | one result per rule |
| Evaluation.RunAllOutcomes | app/core/evaluator.py:48-61 | the i-th result is the i-th rule's own outcome, absorbed, whatever the other rules do (a raising rule does not stop the rest) |
| Evaluation.RunAllStamped | app/core/evaluator.py:53-56 | each result carries its own rule's id and name, whether the rule raised or not |
| Evaluation.ScoresIn | app/core/evaluator.py:69-70 | the selected scores lie in [0, 1] and are empty exactly when no result's id belongs to the family |
| Evaluation.AggregateScores | app/core/evaluator.py:65-80 | only "format_score" and "content_score" can be keys; each is present exactly when some result has an id in that family, and is then the mean of that family's scores; all values lie in [0, 1] |
| Evaluation.OverallBounds | app/core/evaluator.py:82-85 | the overall score (0.0 for no categories, else the mean) lies in [0, 1], so the response always validates |
| Evaluation.FailureLabelsExact | app/core/evaluator.py:87-94 | an id is a failure label exactly when some result with that id failed; there are no more labels than results |
| Evaluation.ExplanationKeysAreLabels | app/core/evaluator.py:96-107 | the explanations are keyed by exactly the failure labels |
| Evaluation.ExplanationsOfFailures | app/core/evaluator.py:101-105 | with distinct ids, each failing result's explanation is the one recorded under its id |
| Evaluation.RegistryOrder | app/core/evaluator.py:11-17 | the registered rules give five results, in the order empty output, JSON, length, keywords, phrases |
| Evaluation.RegistryDistinct | app/core/evaluator.py:101-105 | the registered rules' results have distinct ids, so no explanation overwrites another |
| Evaluation.FamilyMembership | app/core/evaluator.py:66-67 | each registered id belongs to exactly one family |
| Evaluation.FamilySplit | app/core/evaluator.py:69-70 | over the registered results, the format family gets the first three scores and the content family the last two |
| Evaluation.OverallOfBoth | app/core/evaluator.py:82-85 | with both categories present the overall score is their mean |
| Evaluation.FamilyScores | app/core/evaluator.py:65-85 | over the registered results, format is the mean of the first three scores, content the mean of the last two, overall their mean |
| Evaluation.EmptyRequestVerdicts | app/rules/format_rules.py:18-26 | for an empty output with no task type or prompt, the empty-output rule fails with 0.0 (format_rules.py:18-26) and the other four pass with 1.0 (format_rules.py:47-54 and 99-104, content_rules.py:17-22 and 113-142) |
| Evaluation.EmptyRequestOutcomes | app/core/evaluator.py:48-51 | the runner sees those five outcomes for the empty request |
| Evaluation.EmptyOutputScores | app/core/evaluator.py:24-30 | when only the first registered result fails, with 0.0, the labels are ["empty_output"], format 2/3, content 1, overall 5/6 |
| Evaluation.EmptyOutputScenario | app/core/evaluator.py:19-43 | evaluating an empty output without a prompt gives failure labels ["empty_output"], format score 2/3, content score 1 and overall 5/6 |
| Evaluation.Prefix | app/core/evaluator.py:20 | the slice `[:12]` has length min(len, 12) and is a prefix |
| Evaluation.Evaluator.constructor | app/core/evaluator.py:10-17 | the evaluator's rules are the five registered rules in their fixed order |
| Evaluation.Evaluator.RunRules | app/core/evaluator.py:45-63 | the try/except loop returns exactly the absorbed outcomes of the evaluator's rules, in order |
| Evaluation.Evaluator.CalculateOverallScore | app/core/evaluator.py:82-85 | the summing loop over the category scores returns the overall score |
| Evaluation.Evaluator.IdentifyFailures | app/core/evaluator.py:87-94 | the loop returns the ids of the failing results, in result order |
| Evaluation.Evaluator.GenerateExplanations | app/core/evaluator.py:96-107 | the loop returns each failing id mapped to its explanation; the labels argument is not consulted |
| Evaluation.Evaluator.Evaluate | app/core/evaluator.py:19-43 | the response holds "eval_" and the first 12 uuid characters, the given time, the rule results, their aggregation, overall score, failure labels and explanations, and the request unchanged |

## Left out

- The HTTP layer (app/main.py) and the package re-exports (app/rules/__init__.py) are not part of this model.
- The uuid and the clock are parameters. `Evaluate` takes the uuid's hex text and an integer timestamp.
- `json.loads` is a parameter, `loads: string -> JsonOutcome`. It either parses or fails with a message, and its grammar is not modelled.
  - FormatRules.JsonFormatVerdict: the "Valid JSON with N characters" text measures the decoder's rendering of the parsed value, which is also part of that parameter.
  - FormatRules.JsonFormatVerdict: an exception from `json.loads` other than `JSONDecodeError`, such as the `RecursionError` on very deeply nested input, is not caught at format_rules.py:64. The runner at evaluator.py:56-61 would turn it into a failed result. The parameter has no outcome for it, so the model does not produce that failed result.
- Floating point: scores and averages are exact reals. Rounding differences are not modelled. For example, `1.0 - 3 * 0.3` is exactly 0.1 here.
- FormatRules.LengthConstraintVerdict: the "by {excess_pct:.1f}%" tail of the over-limit explanation is left out, because it is float formatting. The rest of that text is kept.
- Case folding, whitespace and digits are ASCII only:
  - `lower` maps A–Z;
  - whitespace is the ASCII part of Python's `str.isspace`;
  - digits are 0–9 only, where Python's `\d` at format_rules.py:137, 141 and 145 also matches other Unicode decimal digits, which `int()` then reads.
  - Unicode is not modelled.
- The regular expressions are hand-written scanners for the specific patterns. They try the same alternatives, in the regex engine's order of preference. A general regex engine is not modelled.
- ContentRules.ExtractRequiredKeywords: `list(set(...))` has no fixed order. The model keeps first occurrences in pattern order. `KeywordScoreOrderIndependent` shows that pass/fail and score do not depend on that order, but the keyword order inside explanations is not modelled.
- The JSON cue set (format_rules.py:78) is iterated in an unspecified order. The model scans it in a fixed order, and the answer is the same either way.
- Pydantic's defaults and validation machinery, and the schema examples, are left out. Only the field shapes and the [0, 1] bounds are kept. `meta` is a map from text to text.
- FormatRules.SearchLimit: `int()` at format_rules.py:139, 143 and 147 raises `ValueError` for a digit run longer than Python's default limit of 4300 digits. The runner would absorb that error. The model reads a digit run of any length as its value, so it does not raise there.
- `_measure_output` has a final `return 0` that no unit reaches. The closed `Unit` datatype has no fourth case.
- `reference` and `meta` are carried in the request but are read by no rule.
- Evaluation.AggregateScores, Evaluation.ExplanationsOf and Evaluation.Evaluator.GenerateExplanations: Python dicts keep insertion order, and the model's maps do not. So the model does not capture that `scores` lists "format_score" before "content_score" (evaluator.py:74-78), nor that `explanations` lists the failing rules in run order (evaluator.py:101-105). The keys and the values are modelled; only their order in the serialized response is not. The failure labels keep run order (`IdentifyFailures`).

=== FILE: averages.dfy ===
/** Sums and means of scores, over lists and over the values of a map. */
module Averages {

  function Sum(xs: seq<real>): real {
    if xs == [] then 0.0 else Sum(xs[..|xs| - 1]) + xs[|xs| - 1]
  }

  lemma {:induction false} SumBounds(xs: seq<real>)
    requires forall k :: 0 <= k < |xs| ==> 0.0 <= xs[k] <= 1.0
    ensures 0.0 <= Sum(xs) <= |xs| as real
  {
    if xs != [] {
      SumBounds(xs[..|xs| - 1]);
    }
  }

  lemma RealShareBounds(s: real, n: real)
    requires 0.0 <= s <= n && 0.0 < n
    ensures 0.0 <= s / n <= 1.0
  {
    assert (s / n) * n == s;
  }

  /** The arithmetic mean of scores in [0, 1] lies in [0, 1]. */
  function Mean(xs: seq<real>): (m: real)
    requires xs != []
    requires forall k :: 0 <= k < |xs| ==> 0.0 <= xs[k] <= 1.0
    ensures 0.0 <= m <= 1.0
  {
    SumBounds(xs);
    RealShareBounds(Sum(xs), |xs| as real);
    Sum(xs) / |xs| as real
  }

  /** Some key of a non-empty map. */
  ghost function Pick(m: map<string, real>): (k: string)
    requires |m| != 0
    ensures k in m
  {
    assert m.Keys != {};
    var k :| k in m.Keys;
    k
  }

  /** The sum of a map's values, in no particular order. */
  ghost function SumValues(m: map<string, real>): real
    decreases |m|
  {
    if |m| == 0 then 0.0
    else m[Pick(m)] + SumValues(m - {Pick(m)})
  }

  lemma RemoveOneKey(m: map<string, real>, k: string)
    requires k in m
    ensures |m| != 0 && |m - {k}| == |m| - 1
  {
    assert k in m.Keys;
    assert (m - {k}).Keys == m.Keys - {k};
  }

  /** The sum does not depend on which key is taken first. */
  lemma {:induction false} SumValuesRemove(m: map<string, real>, k: string)
    requires k in m
    ensures SumValues(m) == m[k] + SumValues(m - {k})
    decreases |m|
  {
    RemoveOneKey(m, k);
    var j := Pick(m);
    if j != k {
      RemoveOneKey(m, j);
      var mj, mk := m - {j}, m - {k};
      assert k in mj && j in mk;
      SumValuesRemove(mj, k);
      SumValuesRemove(mk, j);
      assert mj - {k} == mk - {j};
    }
  }

  lemma {:induction false} SumValuesBounds(m: map<string, real>)
    requires forall k :: k in m ==> 0.0 <= m[k] <= 1.0
    ensures 0.0 <= SumValues(m) <= |m| as real
    decreases |m|
  {
    if |m| != 0 {
      var j := Pick(m);
      RemoveOneKey(m, j);
      SumValuesBounds(m - {j});
    }
  }

  /** The sum of a two-key map is the sum of its two values. */
  lemma SumValuesPair(a: string, x: real, b: string, y: real)
    requires a != b
    ensures |map[a := x, b := y]| == 2
    ensures SumValues(map[a := x, b := y]) == x + y
  {
    var m := map[a := x, b := y];
    var rest := m - {a};
    assert rest == map[b := y];
    assert rest - {b} == map[];
    RemoveOneKey(m, a);
    RemoveOneKey(rest, b);
    SumValuesRemove(m, a);
    SumValuesRemove(rest, b);
  }

  /** The mean of three values. */
  lemma MeanOfThree(a: real, b: real, c: real)
    requires 0.0 <= a <= 1.0 && 0.0 <= b <= 1.0 && 0.0 <= c <= 1.0
    ensures Mean([a, b, c]) == (a + b + c) / 3.0
  {
    var xs := [a, b, c];
    assert xs[..2][..1] == xs[..1] && xs[..1][..0] == [];
    assert Sum(xs[..1]) == a;
    assert Sum(xs[..2]) == a + b;
  }

  /** The mean of two values. */
  lemma MeanOfTwo(a: real, b: real)
    requires 0.0 <= a <= 1.0 && 0.0 <= b <= 1.0
    ensures Mean([a, b]) == (a + b) / 2.0
  {
    var xs := [a, b];
    assert xs[..1][..0] == [];
    assert Sum(xs[..1]) == a;
  }
}

=== FILE: base_rule.dfy ===
/**
 * The rule contract: every rule has a constant identifier, a constant
 * display name and an evaluation; results are stamped with the rule's own
 * identifier and name. Evaluation may raise, which is modelled by RuleError.
 */
module BaseRule {
  import opened Wrappers
  import opened Schemas

  /** The five rules; the closed set of variants replaces the abstract base class. */
  datatype Rule = EmptyOutput | JsonFormat | LengthConstraint | RequiredKeywords | ForbiddenPhrases
  {
    function Id(): string {
      match this
      case EmptyOutput => "empty_output"
      case JsonFormat => "json_format"
      case LengthConstraint => "length_constraint"
      case RequiredKeywords => "required_keywords"
      case ForbiddenPhrases => "forbidden_phrases"
    }

    function Name(): string {
      match this
      case EmptyOutput => "empty output detection"
      case JsonFormat => "JSON format validation"
      case LengthConstraint => "Length constraint validation"
      case RequiredKeywords => "required keyword detection"
      case ForbiddenPhrases => "forbidden phrase detection"
    }
  }

  /** Identifiers are non-empty and tell the rules apart. */
  lemma IdsDistinct(a: Rule, b: Rule)
    ensures |a.Id()| > 0
    ensures a.Id() == b.Id() <==> a == b
  {
  }

  /** The exceptions a rule's evaluation can raise. */
  datatype RuleError =
    | ValidationError(detail: string)   // a result record rejected its score
    | ZeroDivisionError                 // a division by zero
  {
    /** The text of `str(e)`. */
    function Message(): string {
      match this
      case ValidationError(d) => d
      case ZeroDivisionError => "division by zero"
    }
  }

  /** `_create_result`: the calling rule's id and name, with passed, score and explanation copied through. */
  function CreateResult(rule: Rule, passed: bool, score: real, explanation: string)
    : (r: Result<RuleResult, RuleError>)
    ensures r.Success? <==> 0.0 <= score <= 1.0
    ensures r.Success? ==> r.value.ruleId == rule.Id() && r.value.ruleName == rule.Name()
    ensures r.Success? ==> r.value.passed == passed && r.value.score == score && r.value.explanation == explanation
    ensures r.Failure? ==> r.error.ValidationError?
  {
    match MakeRuleResult(rule.Id(), rule.Name(), passed, score, explanation)
    case Success(result) => Success(result)
    case Failure(detail) => Failure(ValidationError(detail))
  }
}

=== FILE: content_rules.dfy ===
/**
 * The content family: RequiredKeywords and ForbiddenPhrases. The regular
 * expressions of the keyword extractor are replaced by scanners over the
 * lower-cased prompt that try the same alternatives in the same order.
 */
module ContentRules {
  import opened Wrappers
  import opened Text
  import opened Schemas
  import opened BaseRule

  // ---------------------------------------------------------------------
  // Scanning helpers

  predicate IsQuote(c: char) {
    c == '\'' || c == '"'
  }

  predicate HasNoQuote(s: string) {
    forall i :: 0 <= i < |s| ==> !IsQuote(s[i])
  }

  /** A slice of a text occurs in it. */
  lemma SliceIsContained(s: string, i: nat, j: nat)
    requires i <= j <= |s|
    ensures Contains(s, s[i..j])
  {
    assert StartsAt(s, s[i..j], i);
  }

  /** Occurrence is transitive. */
  lemma ContainsTransitive(a: string, b: string, c: string)
    requires Contains(a, b) && Contains(b, c)
    ensures Contains(a, c)
  {
    var i :| 0 <= i <= |a| && StartsAt(a, b, i);
    var j :| 0 <= j <= |b| && StartsAt(b, c, j);
    assert forall t :: 0 <= t < |c| ==> a[i + j + t] == b[j + t] == c[t];
    assert a[i + j..i + j + |c|] == c;
    assert StartsAt(a, c, i + j);
  }

  // ---------------------------------------------------------------------
  // Quoted keywords: "must include/mention/contain/use [the word/term/phrase] '…'"
  // and "make sure to mention/include/use '…'"

  /**
   * The literal text before the opening quote of the first pattern, in the
   * order the regex tries it: each verb, first with " the word/term/phrase", then without.
   */
  const MustPrefixes: seq<string> := [
    "must include the word ", "must include the term ", "must include the phrase ", "must include ",
    "must mention the word ", "must mention the term ", "must mention the phrase ", "must mention ",
    "must contain the word ", "must contain the term ", "must contain the phrase ", "must contain ",
    "must use the word ", "must use the term ", "must use the phrase ", "must use "
  ]

  /** The same for the second pattern. */
  const MakeSurePrefixes: seq<string> := ["make sure to mention ", "make sure to include ", "make sure to use "]

  /**
   * `['"]([^'"]+)['"]` at position k: an opening quote, at least one non-quote
   * character, a closing quote. Gives the end of the captured text.
   */
  function QuotedAt(s: string, k: nat): (e: Option<nat>)
    ensures e.Some? ==> k + 1 < e.value < |s| && IsQuote(s[k]) && IsQuote(s[e.value])
    ensures e.Some? ==> forall j :: k + 1 <= j < e.value ==> !IsQuote(s[j])
  {
    if k < |s| && IsQuote(s[k]) then
      var n := SpanWhile(s[k + 1..], c => !IsQuote(c));
      if n >= 1 && k + 1 + n < |s| then Some(k + 1 + n) else None
    else None
  }

  /**
   * The quoted part matches at k exactly when k holds a quote and a later quote
   * closes a non-empty run of non-quote characters.
   */
  lemma QuotedAtComplete(s: string, k: nat)
    ensures QuotedAt(s, k).Some? <==>
      (k < |s| && IsQuote(s[k])
       && exists j :: k + 1 < j < |s| && IsQuote(s[j]) && forall t :: k + 1 <= t < j ==> !IsQuote(s[t]))
  {
  }

  /** Prefix p occurs at i and a quoted capture follows it. */
  predicate QuotedMatch(s: string, i: nat, p: string) {
    StartsAt(s, p, i) && QuotedAt(s, i + |p|).Some?
  }

  /** The bounds of the text between the quotes, for a match of prefix p at i. */
  function QuotedCapture(s: string, i: nat, p: string): (nat, nat)
    requires QuotedMatch(s, i, p)
  {
    (i + |p| + 1, QuotedAt(s, i + |p|).value)
  }

  /** prefixes[k] is the first prefix, in try order, that matches at i. */
  predicate FirstQuotedPrefix(s: string, i: nat, prefixes: seq<string>, k: nat) {
    k < |prefixes| && QuotedMatch(s, i, prefixes[k])
    && forall j :: 0 <= j < k ==> !QuotedMatch(s, i, prefixes[j])
  }

  /** The pattern at position i: the capture of the first prefix, in try order, that matches there. */
  function MatchQuotedAt(s: string, i: nat, prefixes: seq<string>): (m: Option<(nat, nat)>)
    ensures m.Some? ==> i < m.value.0 < m.value.1 < |s|
    ensures m.Some? ==> forall j :: m.value.0 <= j < m.value.1 ==> !IsQuote(s[j])
  {
    if prefixes == [] then None
    else if QuotedMatch(s, i, prefixes[0]) then Some(QuotedCapture(s, i, prefixes[0]))
    else MatchQuotedAt(s, i, prefixes[1..])
  }

  /**
   * The pattern matches at i exactly when some prefix is followed by a quoted
   * capture there, and what it captures is the capture of the first such prefix.
   */
  lemma {:induction false} MatchQuotedAtComplete(s: string, i: nat, prefixes: seq<string>)
    ensures MatchQuotedAt(s, i, prefixes).Some? <==>
      exists k :: 0 <= k < |prefixes| && QuotedMatch(s, i, prefixes[k])
    ensures MatchQuotedAt(s, i, prefixes).Some? ==> exists k: nat ::
      FirstQuotedPrefix(s, i, prefixes, k) && MatchQuotedAt(s, i, prefixes).value == QuotedCapture(s, i, prefixes[k])
  {
    if prefixes != [] && !QuotedMatch(s, i, prefixes[0]) {
      MatchQuotedAtComplete(s, i, prefixes[1..]);
      assert forall k :: 1 <= k < |prefixes| ==> prefixes[k] == prefixes[1..][k - 1];
      if MatchQuotedAt(s, i, prefixes).Some? {
        var k: nat :| FirstQuotedPrefix(s, i, prefixes[1..], k)
          && MatchQuotedAt(s, i, prefixes).value == QuotedCapture(s, i, prefixes[1..][k]);
        assert FirstQuotedPrefix(s, i, prefixes, k + 1);
      } else {
        forall k | 0 <= k < |prefixes| ensures !QuotedMatch(s, i, prefixes[k]) {
          if k > 0 { assert prefixes[k] == prefixes[1..][k - 1]; }
        }
      }
    } else if prefixes != [] {
      assert FirstQuotedPrefix(s, i, prefixes, 0);
    }
  }

  /** Lower-casing leaves quotes where they are. */
  lemma LowerKeepsQuotes(prompt: string, low: string, start: nat, end: nat)
    requires low == Lower(prompt) && start <= end <= |low|
    requires forall j :: start <= j < end ==> !IsQuote(low[j])
    ensures HasNoQuote(prompt[start..end])
  {
    forall j | start <= j < end ensures !IsQuote(prompt[j]) {
      assert low[j] == LowerChar(prompt[j]);
    }
  }

  /** The leftmost position at or after `from` where the pattern matches, if any. */
  function FirstQuoted(low: string, prefixes: seq<string>, from: nat): (p: Option<nat>)
    ensures p.Some? ==> from <= p.value < |low| && MatchQuotedAt(low, p.value, prefixes).Some?
    ensures p.Some? ==> forall q :: from <= q < p.value ==> MatchQuotedAt(low, q, prefixes).None?
    ensures p.None? <==> forall q :: from <= q < |low| ==> MatchQuotedAt(low, q, prefixes).None?
    decreases |low| - from
  {
    if from >= |low| then None
    else if MatchQuotedAt(low, from, prefixes).Some? then Some(from)
    else FirstQuoted(low, prefixes, from + 1)
  }

  /**
   * `re.findall` of a quoted-keyword pattern: searches the lower-cased prompt
   * for the leftmost match, keeps its capture taken from the prompt itself (so
   * its case is kept), and resumes after the match's closing quote. There are
   * no captures exactly when the pattern matches nowhere; otherwise the first
   * is the capture of the leftmost match.
   */
  function FindAllQuoted(prompt: string, low: string, prefixes: seq<string>, from: nat): (ks: seq<string>)
    requires low == Lower(prompt)
    ensures forall k :: 0 <= k < |ks| ==> ks[k] != [] && HasNoQuote(ks[k]) && Contains(prompt, ks[k])
    ensures ks == [] <==> forall q :: from <= q < |low| ==> MatchQuotedAt(low, q, prefixes).None?
    ensures ks != [] ==>
      exists p :: from <= p < |low| && MatchQuotedAt(low, p, prefixes).Some?
        && (forall q :: from <= q < p ==> MatchQuotedAt(low, q, prefixes).None?)
        && ks[0] == prompt[MatchQuotedAt(low, p, prefixes).value.0..MatchQuotedAt(low, p, prefixes).value.1]
    decreases |low| - from
  {
    match FirstQuoted(low, prefixes, from)
    case None => []
    case Some(p) =>
      var (start, end) := MatchQuotedAt(low, p, prefixes).value;
      SliceIsContained(prompt, start, end);
      LowerKeepsQuotes(prompt, low, start, end);
      assert from <= p < |low| && MatchQuotedAt(low, p, prefixes).Some?;
      [prompt[start..end]] + FindAllQuoted(prompt, low, prefixes, end + 1)
  }

  // ---------------------------------------------------------------------
  // Listed keywords: "include [the] following [terms/words/phrases][:] <rest of line>"

  /**
   * The literal part of the third pattern, expanded in the order the regex
   * backtracks: "the " before its absence, "terms" before "term" and so on,
   * the group before its absence, ":" before its absence.
   */
  const FollowingPrefixes: seq<string> :=
    WithTails("include the following ") + WithTails("include following ")

  /** The optional noun, each with and without the colon, then the colon alone and nothing. */
  const FollowingTails: seq<string> := [
    "terms:", "terms", "term:", "term", "words:", "words", "word:", "word",
    "phrases:", "phrases", "phrase:", "phrase", ":", ""
  ]

  /** head followed by each tail in turn. */
  function WithTails(head: string): (ps: seq<string>)
    ensures |ps| == |FollowingTails|
    ensures forall k :: 0 <= k < |ps| ==> ps[k] == head + FollowingTails[k]
  {
    seq(|FollowingTails|, k requires 0 <= k < |FollowingTails| => head + FollowingTails[k])
  }

  /** The last position in [lo, hi) that is not a newline. */
  function LastNonNewline(s: string, lo: nat, hi: nat): (k: Option<nat>)
    requires hi <= |s|
    ensures k.Some? ==> lo <= k.value < hi && s[k.value] != '\n'
    ensures k.Some? ==> forall j :: k.value < j < hi ==> s[j] == '\n'
    ensures k.None? <==> forall j :: lo <= j < hi ==> s[j] == '\n'
    decreases hi
  {
    if hi <= lo then None
    else if s[hi - 1] != '\n' then Some(hi - 1)
    else LastNonNewline(s, lo, hi - 1)
  }

  /**
   * `\s*([^\n]+)` at position p: the whitespace run is taken greedily and given
   * back one character at a time until a non-newline character can start the
   * capture. Gives where the capture starts.
   */
  function SpaceThenLine(s: string, p: nat): (k: Option<nat>)
    requires p <= |s|
    ensures k.Some? ==> p <= k.value < |s| && s[k.value] != '\n'
    ensures k.None? <==> forall j :: p <= j < |s| ==> s[j] == '\n'
  {
    var m := p + SpanWhile(s[p..], IsSpace);
    if m < |s| then Some(m) else LastNonNewline(s, p, m)
  }

  /**
   * Where the capture of `\s*([^\n]+)` starts: after the whole whitespace run
   * when a non-space character ends it, otherwise (the run reaches the end of
   * the text) at the last non-newline character, after which only newlines
   * remain.
   */
  lemma SpaceThenLineStart(s: string, p: nat)
    requires p <= |s|
    ensures var k := SpaceThenLine(s, p);
      k.Some? ==> forall j :: p <= j < k.value ==> IsSpace(s[j])
    ensures var k := SpaceThenLine(s, p);
      k.Some? && IsSpace(s[k.value]) ==> forall j :: k.value < j < |s| ==> s[j] == '\n'
  {
  }

  /** On " \nfoo" the capture skips the blank line and is "foo". */
  lemma SpaceThenLineExample()
    ensures SpaceThenLine(" \nfoo", 0) == Some(2) && LineEnd(" \nfoo", 2) == 5
  {
  }

  /** The end of the line that starts at k. */
  function LineEnd(s: string, k: nat): (e: nat)
    requires k <= |s|
    ensures k <= e <= |s|
    ensures forall j :: k <= j < e ==> s[j] != '\n'
    ensures e == |s| || s[e] == '\n'
  {
    var n := SpanWhile(s[k..], Unlike('\n'));
    assert k + n < |s| ==> s[k..][n] == s[k + n];
    k + n
  }

  /** Prefix p occurs at i and a line with a non-newline character follows it, after any blanks. */
  predicate FollowingMatch(s: string, i: nat, p: string) {
    StartsAt(s, p, i) && SpaceThenLine(s, i + |p|).Some?
  }

  /** The bounds of the captured line, for a match of prefix p at i. */
  function FollowingCapture(s: string, i: nat, p: string): (nat, nat)
    requires FollowingMatch(s, i, p)
  {
    var k := SpaceThenLine(s, i + |p|).value;
    (k, LineEnd(s, k))
  }

  /** prefixes[k] is the first prefix, in try order, that matches at i. */
  predicate FirstFollowingPrefix(s: string, i: nat, prefixes: seq<string>, k: nat) {
    k < |prefixes| && FollowingMatch(s, i, prefixes[k])
    && forall j :: 0 <= j < k ==> !FollowingMatch(s, i, prefixes[j])
  }

  /** The third pattern at position i: the capture of the first prefix, in try order, that matches there. */
  function MatchFollowingAt(s: string, i: nat, prefixes: seq<string>): (m: Option<(nat, nat)>)
    ensures m.Some? ==> i <= m.value.0 < m.value.1 <= |s|
    ensures m.Some? ==> forall j :: m.value.0 <= j < m.value.1 ==> s[j] != '\n'
  {
    if prefixes == [] then None
    else if FollowingMatch(s, i, prefixes[0]) then Some(FollowingCapture(s, i, prefixes[0]))
    else MatchFollowingAt(s, i, prefixes[1..])
  }

  /**
   * The third pattern matches at i exactly when some prefix is followed by a
   * line there, and what it captures is the capture of the first such prefix.
   */
  lemma {:induction false} MatchFollowingAtComplete(s: string, i: nat, prefixes: seq<string>)
    ensures MatchFollowingAt(s, i, prefixes).Some? <==>
      exists k :: 0 <= k < |prefixes| && FollowingMatch(s, i, prefixes[k])
    ensures MatchFollowingAt(s, i, prefixes).Some? ==> exists k: nat ::
      FirstFollowingPrefix(s, i, prefixes, k) && MatchFollowingAt(s, i, prefixes).value == FollowingCapture(s, i, prefixes[k])
  {
    if prefixes != [] && !FollowingMatch(s, i, prefixes[0]) {
      MatchFollowingAtComplete(s, i, prefixes[1..]);
      assert forall k :: 1 <= k < |prefixes| ==> prefixes[k] == prefixes[1..][k - 1];
      if MatchFollowingAt(s, i, prefixes).Some? {
        var k: nat :| FirstFollowingPrefix(s, i, prefixes[1..], k)
          && MatchFollowingAt(s, i, prefixes).value == FollowingCapture(s, i, prefixes[1..][k]);
        assert FirstFollowingPrefix(s, i, prefixes, k + 1);
      } else {
        forall k | 0 <= k < |prefixes| ensures !FollowingMatch(s, i, prefixes[k]) {
          if k > 0 { assert prefixes[k] == prefixes[1..][k - 1]; }
        }
      }
    } else if prefixes != [] {
      assert FirstFollowingPrefix(s, i, prefixes, 0);
    }
  }

  /** The leftmost position at or after `from` where the third pattern matches, if any. */
  function FirstFollowing(s: string, prefixes: seq<string>, from: nat): (p: Option<nat>)
    ensures p.Some? ==> from <= p.value < |s| && MatchFollowingAt(s, p.value, prefixes).Some?
    ensures p.Some? ==> forall q :: from <= q < p.value ==> MatchFollowingAt(s, q, prefixes).None?
    ensures p.None? <==> forall q :: from <= q < |s| ==> MatchFollowingAt(s, q, prefixes).None?
    decreases |s| - from
  {
    if from >= |s| then None
    else if MatchFollowingAt(s, from, prefixes).Some? then Some(from)
    else FirstFollowing(s, prefixes, from + 1)
  }

  /**
   * `re.search` of the third pattern: the match at the leftmost position at or
   * after `from` where it matches, and none exactly when it matches nowhere.
   */
  function SearchFollowing(s: string, prefixes: seq<string>, from: nat): (m: Option<(nat, nat)>)
    ensures m.Some? ==> m.value.0 < m.value.1 <= |s|
    ensures m.Some? ==> forall j :: m.value.0 <= j < m.value.1 ==> s[j] != '\n'
    ensures m.None? <==> forall q :: from <= q < |s| ==> MatchFollowingAt(s, q, prefixes).None?
    ensures m.Some? ==>
      exists p :: from <= p < |s| && MatchFollowingAt(s, p, prefixes) == m
        && forall q :: from <= q < p ==> MatchFollowingAt(s, q, prefixes).None?
  {
    match FirstFollowing(s, prefixes, from)
    case None => None
    case Some(p) =>
      assert from <= p < |s| && MatchFollowingAt(s, p, prefixes).Some?;
      MatchFollowingAt(s, p, prefixes)
  }

  predicate IsQuoteOrComma(c: char) {
    IsQuote(c) || c == ','
  }

  /** `t.strip().strip("\"',")`. */
  function CleanTerm(t: string): string {
    StripBy(Strip(t), IsQuoteOrComma)
  }

  /** A stripped text occurs in the original. */
  lemma StripByIsContained(s: string, p: char -> bool)
    ensures Contains(s, StripBy(s, p))
  {
    var t := TrimStart(s, p);
    SliceIsContained(s, |s| - |t|, |s|);
    assert s[|s| - |t|..|s|] == t;
    SliceIsContained(t, 0, |TrimEnd(t, p)|);
    assert t[0..|TrimEnd(t, p)|] == TrimEnd(t, p);
    ContainsTransitive(s, t, StripBy(s, p));
  }

  /** The pieces of a split each occur in the text. */
  lemma {:induction false} SplitOnIsContained(s: string, sep: char)
    ensures forall k :: 0 <= k < |SplitOn(s, sep)| ==> Contains(s, SplitOn(s, sep)[k])
    decreases |s|
  {
    var parts := SplitOn(s, sep);
    var n := SpanWhile(s, Unlike(sep));
    if n == |s| {
      assert parts == [s];
      assert StartsAt(s, s, 0);
    } else {
      var rest := s[n + 1..];
      var tail := SplitOn(rest, sep);
      assert parts == [s[..n]] + tail;
      SplitOnIsContained(rest, sep);
      assert StartsAt(s, s[..n], 0);
      assert StartsAt(s, rest, n + 1);
      forall k | 1 <= k < |parts| ensures Contains(s, parts[k]) {
        ContainsTransitive(s, rest, tail[k - 1]);
      }
    }
  }

  /** Each piece of the list, cleaned. */
  function CleanTerms(parts: seq<string>): (ks: seq<string>)
    ensures |ks| == |parts|
    ensures forall k :: 0 <= k < |ks| ==> ks[k] == CleanTerm(parts[k])
  {
    seq(|parts|, i requires 0 <= i < |parts| => CleanTerm(parts[i]))
  }

  /** A character of an occurring text is a character of the text it occurs in. */
  lemma ContainsKeepsChars(a: string, b: string, x: char)
    requires Contains(a, b) && x in b
    ensures x in a
  {
    var i :| 0 <= i <= |a| && StartsAt(a, b, i);
    var t :| 0 <= t < |b| && b[t] == x;
    assert a[i + t] == x;
  }

  /** The cleaned terms of a line occur in it and hold no comma. */
  lemma CleanTermsOfLine(line: string)
    ensures forall k :: 0 <= k < |CleanTerms(SplitOn(line, ','))| ==>
      var term := CleanTerms(SplitOn(line, ','))[k];
      Contains(line, term) && ',' !in term
  {
    var parts := SplitOn(line, ',');
    SplitOnIsContained(line, ',');
    forall k | 0 <= k < |parts|
      ensures Contains(line, CleanTerm(parts[k])) && ',' !in CleanTerm(parts[k])
    {
      var t := parts[k];
      StripByIsContained(t, IsSpace);
      StripByIsContained(Strip(t), IsQuoteOrComma);
      ContainsTransitive(t, Strip(t), CleanTerm(t));
      ContainsTransitive(line, t, CleanTerm(t));
      if ',' in CleanTerm(t) {
        ContainsKeepsChars(t, CleanTerm(t), ',');
      }
    }
  }

  /** The comma-separated terms of the first "include the following" line, each cleaned. */
  function FollowingTerms(prompt: string, low: string): (ks: seq<string>)
    requires low == Lower(prompt)
    ensures forall k :: 0 <= k < |ks| ==> Contains(prompt, ks[k]) && ',' !in ks[k]
    ensures ks == [] <==> SearchFollowing(low, FollowingPrefixes, 0).None?
    ensures SearchFollowing(low, FollowingPrefixes, 0).Some? ==>
      var (start, end) := SearchFollowing(low, FollowingPrefixes, 0).value;
      ks == CleanTerms(SplitOn(prompt[start..end], ','))
  {
    match SearchFollowing(low, FollowingPrefixes, 0)
    case None => []
    case Some((start, end)) =>
      var line := prompt[start..end];
      SliceIsContained(prompt, start, end);
      CleanTermsOfLine(line);
      var ks := CleanTerms(SplitOn(line, ','));
      assert forall k :: 0 <= k < |ks| ==> Contains(line, ks[k]) && Contains(prompt, line);
      TransitiveAll(prompt, line, ks);
      ks
  }

  lemma TransitiveAll(a: string, b: string, cs: seq<string>)
    requires Contains(a, b)
    requires forall k :: 0 <= k < |cs| ==> Contains(b, cs[k])
    ensures forall k :: 0 <= k < |cs| ==> Contains(a, cs[k])
  {
    forall k | 0 <= k < |cs| ensures Contains(a, cs[k]) {
      ContainsTransitive(a, b, cs[k]);
    }
  }

  // ---------------------------------------------------------------------
  // RequiredKeywordsRule

  /** The keywords from the three patterns, in pattern order, duplicates kept. */
  function RawKeywords(prompt: string): (ks: seq<string>)
    ensures forall k :: 0 <= k < |ks| ==> Contains(prompt, ks[k])
  {
    var low := Lower(prompt);
    FindAllQuoted(prompt, low, MustPrefixes, 0)
      + FindAllQuoted(prompt, low, MakeSurePrefixes, 0)
      + FollowingTerms(prompt, low)
  }

  /** A prefix can only occur where each of its characters occurs. */
  lemma StartsAtKeepsChar(s: string, p: string, i: nat, c: char)
    requires StartsAt(s, p, i) && c in p
    ensures c in s
  {
    var t :| 0 <= t < |p| && p[t] == c;
    assert s[i + t] == c;
  }

  /** If every prefix holds a character the text lacks, the quoted pattern matches nowhere. */
  lemma NoQuotedMatchWithout(s: string, prefixes: seq<string>, c: char)
    requires c !in s
    requires forall k :: 0 <= k < |prefixes| ==> c in prefixes[k]
    ensures forall i: nat :: MatchQuotedAt(s, i, prefixes).None?
  {
    forall i: nat ensures MatchQuotedAt(s, i, prefixes).None? {
      MatchQuotedAtComplete(s, i, prefixes);
      forall k | 0 <= k < |prefixes| ensures !QuotedMatch(s, i, prefixes[k]) {
        if StartsAt(s, prefixes[k], i) { StartsAtKeepsChar(s, prefixes[k], i, c); }
      }
    }
  }

  /** The same for the third pattern. */
  lemma NoFollowingMatchWithout(s: string, prefixes: seq<string>, c: char)
    requires c !in s
    requires forall k :: 0 <= k < |prefixes| ==> c in prefixes[k]
    ensures forall i: nat :: MatchFollowingAt(s, i, prefixes).None?
  {
    forall i: nat ensures MatchFollowingAt(s, i, prefixes).None? {
      MatchFollowingAtComplete(s, i, prefixes);
      forall k | 0 <= k < |prefixes| ensures !FollowingMatch(s, i, prefixes[k]) {
        if StartsAt(s, prefixes[k], i) { StartsAtKeepsChar(s, prefixes[k], i, c); }
      }
    }
  }

  /** Every "make sure to" prefix holds a 'k'. */
  lemma MakeSurePrefixesHoldK()
    ensures forall k :: 0 <= k < |MakeSurePrefixes| ==> 'k' in MakeSurePrefixes[k]
  {
    assert MakeSurePrefixes[0][2] == 'k';
    assert MakeSurePrefixes[1][2] == 'k';
    assert MakeSurePrefixes[2][2] == 'k';
  }

  /** Every "following" prefix holds a 'g'. */
  lemma FollowingPrefixesHoldG()
    ensures forall k :: 0 <= k < |FollowingPrefixes| ==> 'g' in FollowingPrefixes[k]
  {
    var n := |FollowingTails|;
    forall k | 0 <= k < |FollowingPrefixes| ensures 'g' in FollowingPrefixes[k] {
      if k < n {
        assert FollowingPrefixes[k] == "include the following " + FollowingTails[k];
        assert FollowingPrefixes[k][20] == 'g';
      } else {
        assert FollowingPrefixes[k] == "include following " + FollowingTails[k - n];
        assert FollowingPrefixes[k][16] == 'g';
      }
    }
  }

  /** Every "must" prefix starts with 'm'. */
  lemma MustPrefixesStartWithM()
    ensures forall k :: 0 <= k < |MustPrefixes| ==> MustPrefixes[k] != [] && MustPrefixes[k][0] == 'm'
  {
    assert MustPrefixes[0][0] == 'm';
    assert MustPrefixes[1][0] == 'm';
    assert MustPrefixes[2][0] == 'm';
    assert MustPrefixes[3][0] == 'm';
    assert MustPrefixes[4][0] == 'm';
    assert MustPrefixes[5][0] == 'm';
    assert MustPrefixes[6][0] == 'm';
    assert MustPrefixes[7][0] == 'm';
    assert MustPrefixes[8][0] == 'm';
    assert MustPrefixes[9][0] == 'm';
    assert MustPrefixes[10][0] == 'm';
    assert MustPrefixes[11][0] == 'm';
    assert MustPrefixes[12][0] == 'm';
    assert MustPrefixes[13][0] == 'm';
    assert MustPrefixes[14][0] == 'm';
    assert MustPrefixes[15][0] == 'm';
  }

  /** Where the text does not hold the first character of any prefix, the quoted pattern does not match. */
  lemma NoQuotedMatchAt(s: string, i: nat, prefixes: seq<string>, c: char)
    requires i < |s| && s[i] != c
    requires forall k :: 0 <= k < |prefixes| ==> prefixes[k] != [] && prefixes[k][0] == c
    ensures MatchQuotedAt(s, i, prefixes).None?
  {
    MatchQuotedAtComplete(s, i, prefixes);
    assert forall k :: 0 <= k < |prefixes| ==> !StartsAt(s, prefixes[k], i);
  }

  /** A prefix followed by a quoted word: the prefix occurs there and the quotes enclose the word. */
  lemma QuotedAfterPrefix(a: string, p: string, w: string)
    requires w != [] && HasNoQuote(w)
    ensures var s := a + p + "\"" + w + "\"";
      StartsAt(s, p, |a|) && QuotedAt(s, |a| + |p|) == Some(|a| + |p| + 1 + |w|)
      && s[|a| + |p| + 1..|a| + |p| + 1 + |w|] == w
  {
    var s := a + p + "\"" + w + "\"";
    var k := |a| + |p|;
    assert s[|a|..k] == p;
    assert s[k] == '"';
    assert s[k + 1..] == w + "\"";
    assert s[k + 1..k + 1 + |w|] == w;
  }

  /** Lower-casing works piece by piece. */
  lemma LowerAppend(x: string, y: string)
    ensures Lower(x + y) == Lower(x) + Lower(y)
  {
  }

  /** The leftmost matching position is the one FirstQuoted finds. */
  lemma FirstQuotedIsLeftmost(low: string, prefixes: seq<string>, from: nat, p: nat)
    requires from <= p < |low| && MatchQuotedAt(low, p, prefixes).Some?
    requires forall q :: from <= q < p ==> MatchQuotedAt(low, q, prefixes).None?
    ensures FirstQuoted(low, prefixes, from) == Some(p)
  {
    var f := FirstQuoted(low, prefixes, from);
    assert f.Some?;
    assert !(f.value < p) && !(p < f.value);
  }

  /** The leftmost match's capture comes first; the search resumes after its closing quote. */
  lemma FindAllQuotedStep(prompt: string, low: string, prefixes: seq<string>, from: nat, p: nat)
    requires low == Lower(prompt)
    requires FirstQuoted(low, prefixes, from) == Some(p)
    ensures var (start, end) := MatchQuotedAt(low, p, prefixes).value;
      FindAllQuoted(prompt, low, prefixes, from) == [prompt[start..end]] + FindAllQuoted(prompt, low, prefixes, end + 1)
  {
  }

  /** In the example, the first "must" prefix matches at position 4 and captures [27, 32). */
  lemma ExampleMustMatch(low: string)
    requires low == "you " + "must include the word " + "\"" + "paris" + "\""
    ensures MatchQuotedAt(low, 4, MustPrefixes) == Some((27, 32))
  {
    QuotedAfterPrefix("you ", "must include the word ", "paris");
    assert MustPrefixes[0] == "must include the word ";
  }

  /** In the example, no "must" prefix matches before position 4. */
  lemma ExampleMustNotBefore(low: string)
    requires low == "you " + "must include the word " + "\"" + "paris" + "\""
    ensures forall q :: 0 <= q < 4 ==> MatchQuotedAt(low, q, MustPrefixes).None?
  {
    MustPrefixesStartWithM();
    forall q | 0 <= q < 4 ensures MatchQuotedAt(low, q, MustPrefixes).None? {
      assert low[q] == "you "[q];
      NoQuotedMatchAt(low, q, MustPrefixes, 'm');
    }
  }

  /** The quoted-keyword example: the first pattern captures "Paris", with its case kept. */
  lemma MustExample(prompt: string, low: string)
    requires prompt == "You " + "must include the word " + "\"" + "Paris" + "\""
    requires low == "you " + "must include the word " + "\"" + "paris" + "\""
    requires low == Lower(prompt)
    ensures FindAllQuoted(prompt, low, MustPrefixes, 0) == ["Paris"]
  {
    ExampleMustMatch(low);
    ExampleMustNotBefore(low);
    QuotedAfterPrefix("You ", "must include the word ", "Paris");
    FirstQuotedIsLeftmost(low, MustPrefixes, 0, 4);
    FindAllQuotedStep(prompt, low, MustPrefixes, 0, 4);
    assert FindAllQuoted(prompt, low, MustPrefixes, 33) == [];
  }

  /** The example prompt, cut into its parts. */
  lemma ExamplePromptParts()
    ensures "You must include the word \"Paris\"" == "You " + "must include the word " + "\"" + "Paris" + "\""
  {
  }

  /** The example prompt, lower-cased. */
  lemma ExamplePromptLower(prompt: string)
    requires prompt == "You " + "must include the word " + "\"" + "Paris" + "\""
    ensures Lower(prompt) == "you " + "must include the word " + "\"" + "paris" + "\""
  {
    assert Lower("must include the word ") == "must include the word ";
    assert Lower("You ") == "you " && Lower("Paris") == "paris" && Lower("\"") == "\"";
    LowerAppend("You ", "must include the word ");
    LowerAppend("You " + "must include the word ", "\"");
    LowerAppend("You " + "must include the word " + "\"", "Paris");
    LowerAppend("You " + "must include the word " + "\"" + "Paris", "\"");
  }

  /** Neither of the other two patterns matches anywhere in the example. */
  lemma ExampleOtherPatterns(low: string)
    requires low == "you " + "must include the word " + "\"" + "paris" + "\""
    ensures forall i: nat :: MatchQuotedAt(low, i, MakeSurePrefixes).None?
    ensures forall i: nat :: MatchFollowingAt(low, i, FollowingPrefixes).None?
  {
    assert 'k' !in low && 'g' !in low;
    MakeSurePrefixesHoldK();
    NoQuotedMatchWithout(low, MakeSurePrefixes, 'k');
    FollowingPrefixesHoldG();
    NoFollowingMatchWithout(low, FollowingPrefixes, 'g');
  }

  /** "You must include the word \"Paris\"" asks for exactly the keyword "Paris". */
  lemma RawKeywordsExample()
    ensures RawKeywords("You must include the word \"Paris\"") == ["Paris"]
  {
    var prompt := "You must include the word \"Paris\"";
    var low := "you " + "must include the word " + "\"" + "paris" + "\"";
    ExamplePromptParts();
    ExamplePromptLower(prompt);
    MustExample(prompt, low);
    ExampleOtherPatterns(low);
    assert FindAllQuoted(prompt, low, MakeSurePrefixes, 0) == [];
    assert FollowingTerms(prompt, low) == [];
  }

  /** The prompt asks for no keyword exactly when none of the three patterns matches anywhere in it. */
  lemma RawKeywordsNone(prompt: string)
    ensures RawKeywords(prompt) == [] <==>
      FirstQuoted(Lower(prompt), MustPrefixes, 0).None?
      && FirstQuoted(Lower(prompt), MakeSurePrefixes, 0).None?
      && FirstFollowing(Lower(prompt), FollowingPrefixes, 0).None?
  {
    var low := Lower(prompt);
    var a := FindAllQuoted(prompt, low, MustPrefixes, 0);
    var b := FindAllQuoted(prompt, low, MakeSurePrefixes, 0);
    var c := FollowingTerms(prompt, low);
    assert RawKeywords(prompt) == a + b + c;
    assert c == [] <==> FirstFollowing(low, FollowingPrefixes, 0).None?;
  }

  predicate NoDuplicates(ks: seq<string>) {
    forall i, j :: 0 <= i < j < |ks| ==> ks[i] != ks[j]
  }

  /** The distinct elements of a list, each at its first occurrence. */
  function Dedupe(ks: seq<string>): (r: seq<string>)
    ensures NoDuplicates(r)
    ensures forall x :: x in r <==> x in ks
  {
    if ks == [] then []
    else
      var rest := Dedupe(ks[..|ks| - 1]);
      assert forall x :: x in ks <==> x in ks[..|ks| - 1] || x == ks[|ks| - 1];
      if ks[|ks| - 1] in rest then rest else rest + [ks[|ks| - 1]]
  }

  /**
   * `_extract_required_keywords`: the three patterns' keywords, joined and
   * de-duplicated (case-sensitively). Every required keyword occurs in the prompt.
   */
  method ExtractRequiredKeywords(prompt: string) returns (keywords: seq<string>)
    ensures keywords == Dedupe(RawKeywords(prompt))
    ensures NoDuplicates(keywords)
    ensures forall k :: k in keywords ==> Contains(prompt, k)
  {
    var promptLower := Lower(prompt);
    var must := FindAllQuoted(prompt, promptLower, MustPrefixes, 0);
    var makeSure := FindAllQuoted(prompt, promptLower, MakeSurePrefixes, 0);
    var following := FollowingTerms(prompt, promptLower);
    var raw: seq<string> := [];
    raw := raw + must;
    assert raw == must;
    raw := raw + makeSure;
    raw := raw + following;
    assert raw == RawKeywords(prompt);
    keywords := Dedupe(raw);
    RequiredOccurInPrompt(prompt);
  }

  lemma RequiredOccurInPrompt(prompt: string)
    ensures forall k :: k in Dedupe(RawKeywords(prompt)) ==> Contains(prompt, k)
  {
    var raw := RawKeywords(prompt);
    forall k | k in Dedupe(raw) ensures Contains(prompt, k) {
      assert k in raw;
    }
  }

  /** Keyword k is found when its lower-cased text occurs in the lower-cased output. */
  predicate IsFound(k: string, outputLower: string) {
    Contains(outputLower, Lower(k))
  }

  /** The keywords found, in list order. */
  function FoundKeywords(ks: seq<string>, outputLower: string): seq<string> {
    if ks == [] then []
    else FoundKeywords(ks[..|ks| - 1], outputLower)
         + (if IsFound(ks[|ks| - 1], outputLower) then [ks[|ks| - 1]] else [])
  }

  /** The keywords missing, in list order. */
  function MissingKeywords(ks: seq<string>, outputLower: string): seq<string> {
    if ks == [] then []
    else MissingKeywords(ks[..|ks| - 1], outputLower)
         + (if IsFound(ks[|ks| - 1], outputLower) then [] else [ks[|ks| - 1]])
  }

  /** Every keyword lands in exactly one of the two lists. */
  lemma {:induction false} FoundMissingPartition(ks: seq<string>, outputLower: string)
    ensures |FoundKeywords(ks, outputLower)| + |MissingKeywords(ks, outputLower)| == |ks|
    ensures forall x :: x in FoundKeywords(ks, outputLower) <==> x in ks && IsFound(x, outputLower)
    ensures forall x :: x in MissingKeywords(ks, outputLower) <==> x in ks && !IsFound(x, outputLower)
  {
    if ks != [] {
      var init := ks[..|ks| - 1];
      FoundMissingPartition(init, outputLower);
      assert forall x :: x in ks <==> x in init || x == ks[|ks| - 1];
    }
  }

  /** Score of the keyword rule: the share of required keywords that were found. */
  function KeywordScore(ks: seq<string>, outputLower: string): (s: real)
    requires ks != []
    ensures 0.0 <= s <= 1.0
    ensures s == 1.0 <==> MissingKeywords(ks, outputLower) == []
  {
    FoundMissingPartition(ks, outputLower);
    ShareBounds(|FoundKeywords(ks, outputLower)|, |ks|);
    |FoundKeywords(ks, outputLower)| as real / |ks| as real
  }

  lemma ShareBounds(f: nat, n: nat)
    requires f <= n && 0 < n
    ensures 0.0 <= f as real / n as real <= 1.0
    ensures f as real / n as real == 1.0 <==> f == n
  {
    var fr, nr := f as real, n as real;
    var q := fr / nr;
    assert q * nr == fr;
    assert (1.0 - q) * nr == nr - fr;
    if f < n {
      assert nr - fr > 0.0;
      assert (1.0 - q) * nr > 0.0;
    }
  }

  /** The keywords the rule requires: none without a prompt. */
  function RequiredOf(request: EvaluationRequest): seq<string> {
    if request.HasPrompt() then Dedupe(RawKeywords(request.prompt.value)) else []
  }

  /**
   * RequiredKeywordsRule.evaluate: passes with 1.0 when nothing is required;
   * otherwise scores the share found and fails, listing the missing ones,
   * exactly when one is missing.
   */
  function RequiredKeywordsVerdict(request: EvaluationRequest): (r: Result<RuleResult, RuleError>)
    ensures r.Success? && (r.value.ruleId == RequiredKeywords.Id() && r.value.ruleName == RequiredKeywords.Name() && r.value.explanation != "")
    ensures RequiredOf(request) == [] ==> r.value.passed && r.value.score == 1.0
    ensures RequiredOf(request) != [] ==>
      var missing := MissingKeywords(RequiredOf(request), Lower(request.output));
      && r.value.score == KeywordScore(RequiredOf(request), Lower(request.output))
      && (r.value.passed <==> missing == [])
      && (!r.value.passed ==> r.value.explanation == "Missing required keywords: " + Join(missing, ", "))
  {
    if !request.HasPrompt() then
      CreateResult(RequiredKeywords, true, 1.0, "No prompt provided to check keywords")
    else
      var required := Dedupe(RawKeywords(request.prompt.value));
      if required == [] then
        CreateResult(RequiredKeywords, true, 1.0, "No required keywords detected in prompt")
      else
        var outputLower := Lower(request.output);
        var found := FoundKeywords(required, outputLower);
        var missing := MissingKeywords(required, outputLower);
        var score := KeywordScore(required, outputLower);
        if missing != [] then
          CreateResult(RequiredKeywords, false, score, "Missing required keywords: " + Join(missing, ", "))
        else
          CreateResult(RequiredKeywords, true, 1.0,
            "All " + NatToString(|required|) + " required keywords present: " + Join(found, ", "))
  }

  /** The loop of RequiredKeywordsRule.evaluate: each keyword goes to found or to missing, in list order. */
  method SortKeywords(required: seq<string>, outputLower: string) returns (found: seq<string>, missing: seq<string>)
    ensures found == FoundKeywords(required, outputLower)
    ensures missing == MissingKeywords(required, outputLower)
  {
    missing, found := [], [];
    for i := 0 to |required|
      invariant found == FoundKeywords(required[..i], outputLower)
      invariant missing == MissingKeywords(required[..i], outputLower)
    {
      assert required[..i + 1][..i] == required[..i];
      if Contains(outputLower, Lower(required[i])) {
        found := found + [required[i]];
      } else {
        missing := missing + [required[i]];
      }
    }
    assert required[..|required|] == required;
  }

  /** RequiredKeywordsRule.evaluate: sorts the keywords into found and missing, then scores the share found. */
  method EvaluateRequiredKeywords(request: EvaluationRequest) returns (r: Result<RuleResult, RuleError>)
    ensures r == RequiredKeywordsVerdict(request)
  {
    if !request.HasPrompt() {
      return CreateResult(RequiredKeywords, true, 1.0, "No prompt provided to check keywords");
    }
    var required := ExtractRequiredKeywords(request.prompt.value);
    if required == [] {
      return CreateResult(RequiredKeywords, true, 1.0, "No required keywords detected in prompt");
    }
    var outputLower := Lower(request.output);
    var found, missing := SortKeywords(required, outputLower);
    var score := |found| as real / |required| as real;
    assert score == KeywordScore(required, outputLower);
    if missing != [] {
      return CreateResult(RequiredKeywords, false, score, "Missing required keywords: " + Join(missing, ", "));
    }
    return CreateResult(RequiredKeywords, true, 1.0,
      "All " + NatToString(|required|) + " required keywords present: " + Join(found, ", "));
  }

  /** A list without duplicates has as many elements as its set. */
  lemma {:induction false} DistinctCount(ks: seq<string>)
    requires NoDuplicates(ks)
    ensures |set x | x in ks| == |ks|
  {
    if ks != [] {
      var init := ks[..|ks| - 1];
      DistinctCount(init);
      assert (set x | x in ks) == (set x | x in init) + {ks[|ks| - 1]};
    }
  }

  /** Filtering keeps a list free of duplicates. */
  lemma {:induction false} FoundDistinct(ks: seq<string>, outputLower: string)
    requires NoDuplicates(ks)
    ensures NoDuplicates(FoundKeywords(ks, outputLower))
  {
    if ks != [] {
      var init := ks[..|ks| - 1];
      FoundDistinct(init, outputLower);
      FoundMissingPartition(init, outputLower);
    }
  }

  /**
   * The verdict does not depend on the order of the required keywords: any two
   * duplicate-free lists of the same keywords get the same score. (The
   * extractor's order comes from iterating a set.)
   */
  lemma KeywordScoreOrderIndependent(a: seq<string>, b: seq<string>, outputLower: string)
    requires a != [] && NoDuplicates(a) && NoDuplicates(b)
    requires forall x :: x in a <==> x in b
    ensures b != [] && KeywordScore(a, outputLower) == KeywordScore(b, outputLower)
  {
    assert a[0] in b;
    DistinctCount(a);
    DistinctCount(b);
    assert (set x | x in a) == (set x | x in b);
    var fa, fb := FoundKeywords(a, outputLower), FoundKeywords(b, outputLower);
    FoundMissingPartition(a, outputLower);
    FoundMissingPartition(b, outputLower);
    FoundDistinct(a, outputLower);
    FoundDistinct(b, outputLower);
    DistinctCount(fa);
    DistinctCount(fb);
    assert (set x | x in fa) == (set x | x in fb);
  }

  // ---------------------------------------------------------------------
  // ForbiddenPhrasesRule

  /** The eleven AI-disclaimer phrases, lower case, in scan order. */
  const ForbiddenList: seq<string> := [
    "as an ai",
    "as a language model",
    "i'm an ai",
    "i am an ai",
    "i don't have access to",
    "i cannot browse",
    "i don't have the ability to",
    "my training data",
    "my knowledge cutoff",
    "i'm not able to",
    "i cannot provide real-time"
  ]

  /** The phrases that occur in the text, in list order, each at most once. */
  function Occurring(phrases: seq<string>, text: string): (r: seq<string>)
    ensures |r| <= |phrases|
    ensures forall x :: x in r <==> x in phrases && Contains(text, x)
    ensures NoDuplicates(phrases) ==> NoDuplicates(r)
  {
    if phrases == [] then []
    else
      var init, last := phrases[..|phrases| - 1], phrases[|phrases| - 1];
      assert forall x :: x in phrases <==> x in init || x == last;
      assert NoDuplicates(phrases) ==> NoDuplicates(init) && last !in init;
      Occurring(init, text) + (if Contains(text, last) then [last] else [])
  }

  /** The eleven phrases are distinct. */
  lemma ForbiddenListDistinct()
    ensures |ForbiddenList| == 11 && NoDuplicates(ForbiddenList)
  {
    forall i, j | 0 <= i < j < |ForbiddenList| ensures ForbiddenList[i] != ForbiddenList[j] {
      if |ForbiddenList[i]| == |ForbiddenList[j]| {
        assert ForbiddenList[i][0] != ForbiddenList[j][0] || ForbiddenList[i][1] != ForbiddenList[j][1];
      }
    }
  }

  /**
   * The rule counts each forbidden phrase that occurs once: the number of
   * matches is the number of distinct list phrases found in the text.
   */
  lemma ForbiddenCount(text: string)
    ensures |Occurring(ForbiddenList, text)| == |set x | x in ForbiddenList && Contains(text, x)|
  {
    var r := Occurring(ForbiddenList, text);
    ForbiddenListDistinct();
    DistinctCount(r);
    assert (set x | x in r) == (set x | x in ForbiddenList && Contains(text, x));
  }

  /** No non-empty phrase occurs in the empty text. */
  lemma {:induction false} NothingOccursInEmpty(phrases: seq<string>)
    requires forall k :: 0 <= k < |phrases| ==> phrases[k] != ""
    ensures Occurring(phrases, "") == []
  {
    if phrases != [] {
      NothingOccursInEmpty(phrases[..|phrases| - 1]);
      LongerIsNotContained("", phrases[|phrases| - 1]);
    }
  }

  /** The penalty `max(0, 1 - 0.3 n)`. */
  function PhrasePenalty(n: nat): (s: real)
    ensures 0.0 <= s <= 1.0
    ensures s == 1.0 <==> n == 0
    ensures s == 0.0 <==> n >= 4
  {
    if 1.0 - n as real * 0.3 > 0.0 then 1.0 - n as real * 0.3 else 0.0
  }

  /** One, two and three matches score 0.7, 0.4 and 0.1; more matches never score better. */
  lemma PhrasePenaltyValues(m: nat, n: nat)
    requires m <= n
    ensures PhrasePenalty(1) == 0.7 && PhrasePenalty(2) == 0.4 && PhrasePenalty(3) == 0.1
    ensures PhrasePenalty(n) <= PhrasePenalty(m)
  {
  }

  /** The explanation: all matches when there are at most five, else the first five and a count of the rest. */
  function PhrasesExplanation(found: seq<string>): (e: string)
    requires found != []
  {
    var n := |found|;
    if n <= 5 then
      "contains " + NatToString(n) + " forbidden phrase(s): '" + Join(found, "', '") + "'"
    else
      "contains " + NatToString(n) + " forbidden phrase(s): '" + Join(found[..5], "', '")
        + "' and " + NatToString(n - 5) + " more"
  }

  /** Every piece of a joined list occurs in the joined text. */
  lemma {:induction false} JoinContains(parts: seq<string>, sep: string, k: nat)
    requires k < |parts|
    ensures Contains(Join(parts, sep), parts[k])
    decreases k
  {
    var joined := Join(parts, sep);
    if |parts| == 1 {
      SliceIsContained(joined, 0, |joined|);
      assert joined[0..|joined|] == joined == parts[0];
    } else if k == 0 {
      SliceIsContained(joined, 0, |parts[0]|);
      assert joined[0..|parts[0]|] == parts[0];
    } else {
      var rest := Join(parts[1..], sep);
      var offset := |parts[0]| + |sep|;
      JoinContains(parts[1..], sep, k - 1);
      SliceIsContained(joined, offset, |joined|);
      assert joined[offset..|joined|] == rest;
      ContainsTransitive(joined, rest, parts[k]);
    }
  }

  /** The explanation names each of the first five matches. */
  lemma ExplanationNamesFirstFive(found: seq<string>)
    requires found != []
    ensures forall k :: 0 <= k < |found| && k < 5 ==> Contains(PhrasesExplanation(found), found[k])
  {
    var e := PhrasesExplanation(found);
    var named := if |found| <= 5 then found else found[..5];
    var list := Join(named, "', '");
    var head := "contains " + NatToString(|found|) + " forbidden phrase(s): '";
    assert e[|head|..|head| + |list|] == list;
    SliceIsContained(e, |head|, |head| + |list|);
    forall k | 0 <= k < |found| && k < 5 ensures Contains(e, found[k]) {
      assert found[k] == named[k];
      JoinContains(named, "', '", k);
      ContainsTransitive(e, list, found[k]);
    }
  }

  /** Beyond five matches the explanation ends by counting the ones it does not name. */
  lemma ExplanationCountsRest(found: seq<string>)
    requires |found| > 5
    ensures var e := PhrasesExplanation(found); var r := NatToString(|found| - 5) + " more";
      |e| >= |r| && e[|e| - |r|..] == r
  {
    var e := PhrasesExplanation(found);
    var r := NatToString(|found| - 5) + " more";
    var front := "contains " + NatToString(|found|) + " forbidden phrase(s): '" + Join(found[..5], "', '") + "' and ";
    assert e == front + r;
  }

  /**
   * ForbiddenPhrasesRule.evaluate: passes with 1.0 exactly when no phrase occurs
   * in the lower-cased output; otherwise fails with the linear penalty.
   */
  function ForbiddenPhrasesVerdict(request: EvaluationRequest): (r: Result<RuleResult, RuleError>)
    ensures r.Success? && (r.value.ruleId == ForbiddenPhrases.Id() && r.value.ruleName == ForbiddenPhrases.Name() && r.value.explanation != "")
    ensures var found := Occurring(ForbiddenList, Lower(request.output));
      && (r.value.passed <==> found == [])
      && r.value.score == PhrasePenalty(|found|)
      && (found != [] ==> r.value.explanation == PhrasesExplanation(found))
  {
    var found := Occurring(ForbiddenList, Lower(request.output));
    if found != [] then
      CreateResult(ForbiddenPhrases, false, PhrasePenalty(|found|), PhrasesExplanation(found))
    else
      CreateResult(ForbiddenPhrases, true, 1.0, "No forbidden phrases detected")
  }

  /** ForbiddenPhrasesRule.evaluate: scans the phrase list once, collecting the ones present. */
  method EvaluateForbiddenPhrases(request: EvaluationRequest) returns (r: Result<RuleResult, RuleError>)
    ensures r == ForbiddenPhrasesVerdict(request)
  {
    var outputLower := Lower(request.output);
    var found: seq<string> := [];
    for i := 0 to |ForbiddenList|
      invariant found == Occurring(ForbiddenList[..i], outputLower)
    {
      assert ForbiddenList[..i + 1][..i] == ForbiddenList[..i];
      if Contains(outputLower, ForbiddenList[i]) {
        found := found + [ForbiddenList[i]];
      }
    }
    assert ForbiddenList[..|ForbiddenList|] == ForbiddenList;
    if found != [] {
      return CreateResult(ForbiddenPhrases, false, PhrasePenalty(|found|), PhrasesExplanation(found));
    }
    return CreateResult(ForbiddenPhrases, true, 1.0, "No forbidden phrases detected");
  }

  /** The prompt is never consulted. */
  lemma ForbiddenIgnoresPrompt(request: EvaluationRequest, prompt: Option<string>)
    ensures ForbiddenPhrasesVerdict(request.(prompt := prompt)) == ForbiddenPhrasesVerdict(request)
  {
  }
}

=== FILE: evaluator.dfy ===
/**
 * The evaluator: runs the registered rules in order, turns a rule that
 * raises into a failed result, averages the scores per family and overall,
 * and collects the failing rules' identifiers and explanations.
 */
module Evaluation {
  import opened Wrappers
  import opened Text
  import opened Schemas
  import opened BaseRule
  import opened FormatRules
  import opened ContentRules
  import opened Averages

  /** The registered rules, in the order they run: the format family, then the content family. */
  const Registry: seq<Rule> := [EmptyOutput, JsonFormat, LengthConstraint, RequiredKeywords, ForbiddenPhrases]

  // ---------------------------------------------------------------------
  // Running the rules

  /**
   * What evaluating one rule yields: a result stamped with the rule's own id and
   * name and a non-empty explanation, or the one exception this model raises,
   * the length rule's division by zero.
   */
  function EvaluateRule(rule: Rule, request: EvaluationRequest, loads: JsonLoads): (r: Result<RuleResult, RuleError>)
    ensures r.Success? ==> r.value.ruleId == rule.Id() && r.value.ruleName == rule.Name() && r.value.explanation != ""
    ensures r.Failure? ==> rule == LengthConstraint && r.error == ZeroDivisionError
  {
    LengthRaisesOnlyOnZeroLimit(request);
    match rule
    case EmptyOutput => EvaluateEmptyOutput(request)
    case JsonFormat => JsonFormatVerdict(request, loads)
    case LengthConstraint => LengthConstraintVerdict(request)
    case RequiredKeywords => RequiredKeywordsVerdict(request)
    case ForbiddenPhrases => ForbiddenPhrasesVerdict(request)
  }

  /** `rule.evaluate(request)`, dispatched to the rule's own evaluation. */
  method RunRule(rule: Rule, request: EvaluationRequest, loads: JsonLoads) returns (r: Result<RuleResult, RuleError>)
    ensures r == EvaluateRule(rule, request, loads)
  {
    match rule
    case EmptyOutput => r := EvaluateEmptyOutput(request);
    case JsonFormat => r := EvaluateJsonFormat(request, loads);
    case LengthConstraint => r := LengthConstraintVerdict(request);
    case RequiredKeywords => r := EvaluateRequiredKeywords(request);
    case ForbiddenPhrases => r := EvaluateForbiddenPhrases(request);
  }

  /**
   * The `except` branch of `_run_rules`: a rule's own result passes through
   * unchanged, and a raised error becomes a failed result with score 0 that
   * names the error.
   */
  function Absorb(rule: Rule, outcome: Result<RuleResult, RuleError>): (r: RuleResult)
    ensures outcome.Success? ==> r == outcome.value
    ensures outcome.Failure? ==>
      r.ruleId == rule.Id() && r.ruleName == rule.Name() && !r.passed && r.score == 0.0
      && r.explanation == "Rule execution failed: " + outcome.error.Message()
  {
    match outcome
    case Success(result) => result
    case Failure(e) => RuleResult(rule.Id(), rule.Name(), false, 0.0, "Rule execution failed: " + e.Message())
  }

  /** How each rule evaluates one request: `rule.evaluate(request)`, for every rule. */
  type Verdicts = Rule -> Result<RuleResult, RuleError>

  /** The registered rules' own evaluations of a request. */
  function Dispatch(request: EvaluationRequest, loads: JsonLoads): Verdicts {
    rule => EvaluateRule(rule, request, loads)
  }

  /** Every result an evaluation returns carries its rule's id and name. */
  predicate Stamps(evaluate: Verdicts) {
    forall rule: Rule :: evaluate(rule).Success? ==>
      evaluate(rule).value.ruleId == rule.Id() && evaluate(rule).value.ruleName == rule.Name()
  }

  /** The registered rules stamp their own results. */
  lemma DispatchStamps(request: EvaluationRequest, loads: JsonLoads)
    ensures Stamps(Dispatch(request, loads))
  {
    forall rule: Rule | Dispatch(request, loads)(rule).Success?
      ensures Dispatch(request, loads)(rule).value.ruleId == rule.Id()
      ensures Dispatch(request, loads)(rule).value.ruleName == rule.Name()
    {
      assert Dispatch(request, loads)(rule) == EvaluateRule(rule, request, loads);
    }
  }

  /** `_run_rules` as a value: one result per rule, in rule order; a rule that raised yields the synthetic failure. */
  function RunAll(rules: seq<Rule>, evaluate: Verdicts): (rs: seq<RuleResult>)
    ensures |rs| == |rules|
  {
    if rules == [] then []
    else
      var last := rules[|rules| - 1];
      RunAll(rules[..|rules| - 1], evaluate) + [Absorb(last, evaluate(last))]
  }

  /** Each result is what absorbing its own rule's outcome gives, whatever the other rules do. */
  lemma {:induction false} RunAllOutcomes(rules: seq<Rule>, evaluate: Verdicts)
    ensures var rs := RunAll(rules, evaluate);
      forall i :: 0 <= i < |rules| ==> rs[i] == Absorb(rules[i], evaluate(rules[i]))
  {
    if rules != [] {
      var init := rules[..|rules| - 1];
      RunAllOutcomes(init, evaluate);
      assert forall i :: 0 <= i < |init| ==> init[i] == rules[i];
    }
  }

  /** With a stamping evaluation, each result carries its own rule's id and name, whether the rule raised or not. */
  lemma RunAllStamped(rules: seq<Rule>, evaluate: Verdicts)
    requires Stamps(evaluate)
    ensures var rs := RunAll(rules, evaluate);
      forall i :: 0 <= i < |rules| ==> rs[i].ruleId == rules[i].Id() && rs[i].ruleName == rules[i].Name()
  {
    RunAllOutcomes(rules, evaluate);
  }

  lemma RunAllExtend(rules: seq<Rule>, i: nat, evaluate: Verdicts)
    requires i < |rules|
    ensures RunAll(rules[..i + 1], evaluate) == RunAll(rules[..i], evaluate) + [Absorb(rules[i], evaluate(rules[i]))]
  {
    assert rules[..i + 1][..i] == rules[..i];
  }

  // ---------------------------------------------------------------------
  // Aggregation

  const FormatIds: seq<string> := ["empty_output", "json_format", "length_constraint"]
  const ContentIds: seq<string> := ["required_keywords", "forbidden_phrases"]

  /** `[r.score for r in results if r.rule_id in ids]`. */
  function ScoresIn(results: seq<RuleResult>, ids: seq<string>): (xs: seq<real>)
    ensures |xs| <= |results|
    ensures forall k :: 0 <= k < |xs| ==> 0.0 <= xs[k] <= 1.0
    ensures xs == [] <==> forall i :: 0 <= i < |results| ==> results[i].ruleId !in ids
  {
    if results == [] then []
    else
      var init := results[..|results| - 1];
      var last := results[|results| - 1];
      assert forall i :: 0 <= i < |init| ==> init[i] == results[i];
      ScoresIn(init, ids) + (if last.ruleId in ids then [last.score] else [])
  }

  /**
   * `_aggregate_scores`: "format_score" is the mean over the format family and
   * "content_score" over the content family, each present only when some result
   * belongs to that family; results of other ids count toward neither.
   */
  function AggregateScores(results: seq<RuleResult>): (scores: map<string, real>)
    ensures scores.Keys <= {"format_score", "content_score"}
    ensures "format_score" in scores <==> exists i :: 0 <= i < |results| && results[i].ruleId in FormatIds
    ensures "content_score" in scores <==> exists i :: 0 <= i < |results| && results[i].ruleId in ContentIds
    ensures "format_score" in scores ==> scores["format_score"] == Mean(ScoresIn(results, FormatIds))
    ensures "content_score" in scores ==> scores["content_score"] == Mean(ScoresIn(results, ContentIds))
    ensures forall k :: k in scores ==> 0.0 <= scores[k] <= 1.0
  {
    var formatScores := ScoresIn(results, FormatIds);
    var contentScores := ScoresIn(results, ContentIds);
    var withFormat := if formatScores != [] then map["format_score" := Mean(formatScores)] else map[];
    if contentScores != [] then withFormat["content_score" := Mean(contentScores)] else withFormat
  }

  /** `_calculate_overall_score` as a value: the mean of the category scores, 0.0 when there are none. */
  ghost function OverallOf(scores: map<string, real>): real {
    if |scores| == 0 then 0.0 else SumValues(scores) / |scores| as real
  }

  /** The overall score of category scores in [0, 1] lies in [0, 1]. */
  lemma OverallBounds(scores: map<string, real>)
    requires forall k :: k in scores ==> 0.0 <= scores[k] <= 1.0
    ensures 0.0 <= OverallOf(scores) <= 1.0
  {
    if |scores| != 0 {
      SumValuesBounds(scores);
      RealShareBounds(SumValues(scores), |scores| as real);
    }
  }

  // ---------------------------------------------------------------------
  // Failures

  /** `_identify_failures` as a value: the ids of the failing results, in result order. */
  function FailureLabels(results: seq<RuleResult>): seq<string> {
    if results == [] then []
    else
      var last := results[|results| - 1];
      FailureLabels(results[..|results| - 1]) + (if !last.passed then [last.ruleId] else [])
  }

  /** `_generate_explanations` as a value: each failing id mapped to its explanation, later results overwriting earlier. */
  function ExplanationsOf(results: seq<RuleResult>): map<string, string> {
    if results == [] then map[]
    else
      var last := results[|results| - 1];
      var earlier := ExplanationsOf(results[..|results| - 1]);
      if !last.passed then earlier[last.ruleId := last.explanation] else earlier
  }

  /** An id is a failure label exactly when some result with that id failed. */
  lemma {:induction false} FailureLabelsExact(results: seq<RuleResult>)
    ensures forall id :: id in FailureLabels(results) <==>
      exists i :: 0 <= i < |results| && !results[i].passed && results[i].ruleId == id
    ensures |FailureLabels(results)| <= |results|
  {
    if results != [] {
      var init := results[..|results| - 1];
      FailureLabelsExact(init);
      assert forall i :: 0 <= i < |init| ==> init[i] == results[i];
    }
  }

  /** The explanations are keyed by exactly the failure labels. */
  lemma {:induction false} ExplanationKeysAreLabels(results: seq<RuleResult>)
    ensures ExplanationsOf(results).Keys == set id | id in FailureLabels(results)
  {
    if results != [] {
      ExplanationKeysAreLabels(results[..|results| - 1]);
    }
  }

  predicate DistinctIds(results: seq<RuleResult>) {
    forall i, j :: 0 <= i < j < |results| ==> results[i].ruleId != results[j].ruleId
  }

  /** With distinct ids, each failing result's explanation is the one recorded under its id. */
  lemma {:induction false} ExplanationsOfFailures(results: seq<RuleResult>)
    requires DistinctIds(results)
    ensures forall i :: 0 <= i < |results| && !results[i].passed ==>
      results[i].ruleId in ExplanationsOf(results)
      && ExplanationsOf(results)[results[i].ruleId] == results[i].explanation
  {
    if results != [] {
      var init, last := results[..|results| - 1], results[|results| - 1];
      assert forall i :: 0 <= i < |init| ==> init[i] == results[i];
      ExplanationsOfFailures(init);
      forall i | 0 <= i < |init| && !results[i].passed
        ensures results[i].ruleId in ExplanationsOf(results)
        ensures ExplanationsOf(results)[results[i].ruleId] == results[i].explanation
      {
        assert results[i].ruleId != last.ruleId;
      }
    }
  }

  // ---------------------------------------------------------------------
  // The registered rules

  /** Five results carrying the registered ids, in registration order. */
  predicate InRegistryOrder(rs: seq<RuleResult>) {
    && |rs| == 5
    && rs[0].ruleId == "empty_output" && rs[1].ruleId == "json_format"
    && rs[2].ruleId == "length_constraint" && rs[3].ruleId == "required_keywords"
    && rs[4].ruleId == "forbidden_phrases"
  }

  /** Run over the registered rules, a stamping evaluation gives five results in registration order. */
  lemma RegistryOrder(evaluate: Verdicts)
    requires Stamps(evaluate)
    ensures InRegistryOrder(RunAll(Registry, evaluate))
  {
    RunAllStamped(Registry, evaluate);
    assert Registry[0] == EmptyOutput && Registry[1] == JsonFormat && Registry[2] == LengthConstraint;
    assert Registry[3] == RequiredKeywords && Registry[4] == ForbiddenPhrases;
  }

  /** Results carrying the five registered ids in order carry distinct ids. */
  lemma OrderedIdsDistinct(rs: seq<RuleResult>)
    requires InRegistryOrder(rs)
    ensures DistinctIds(rs)
  {
    // the lengths 12, 11 and 17 and the initials 'l', 'r' and 'f' tell the ids apart
    assert |rs[0].ruleId| == 12 && |rs[1].ruleId| == 11 && |rs[2].ruleId| == 17;
    assert rs[2].ruleId[0] == 'l' && rs[3].ruleId[0] == 'r' && rs[4].ruleId[0] == 'f';
  }

  /** The registered rules' results carry distinct ids, so no explanation overwrites another. */
  lemma RegistryDistinct(evaluate: Verdicts)
    requires Stamps(evaluate)
    ensures DistinctIds(RunAll(Registry, evaluate))
  {
    RegistryOrder(evaluate);
    OrderedIdsDistinct(RunAll(Registry, evaluate));
  }

  /** Each registered id belongs to exactly one family. */
  lemma FamilyMembership()
    ensures "empty_output" in FormatIds && "json_format" in FormatIds && "length_constraint" in FormatIds
    ensures "required_keywords" !in FormatIds && "forbidden_phrases" !in FormatIds
    ensures "required_keywords" in ContentIds && "forbidden_phrases" in ContentIds
    ensures "empty_output" !in ContentIds && "json_format" !in ContentIds && "length_constraint" !in ContentIds
  {
    assert FormatIds[0] == "empty_output" && FormatIds[1] == "json_format" && FormatIds[2] == "length_constraint";
    assert ContentIds[0] == "required_keywords" && ContentIds[1] == "forbidden_phrases";
    assert forall k :: 0 <= k < 3 ==> FormatIds[k][0] != 'r' && FormatIds[k][0] != 'f';
    assert forall k :: 0 <= k < 2 ==> |ContentIds[k]| == 17 && ContentIds[k][0] != 'l';
  }

  /** Five results in registration order split into a format family of three and a content family of two. */
  lemma FamilySplit(rs: seq<RuleResult>)
    requires InRegistryOrder(rs)
    ensures ScoresIn(rs, FormatIds) == [rs[0].score, rs[1].score, rs[2].score]
    ensures ScoresIn(rs, ContentIds) == [rs[3].score, rs[4].score]
  {
    FamilyMembership();
    assert rs[..5] == rs && rs[..5][..4] == rs[..4] && rs[..4][..3] == rs[..3];
    assert rs[..3][..2] == rs[..2] && rs[..2][..1] == rs[..1] && rs[..1][..0] == [];
    assert ScoresIn(rs[..1], FormatIds) == [rs[0].score];
    assert ScoresIn(rs[..2], FormatIds) == [rs[0].score, rs[1].score];
    assert ScoresIn(rs[..3], FormatIds) == [rs[0].score, rs[1].score, rs[2].score];
    assert ScoresIn(rs[..4], FormatIds) == [rs[0].score, rs[1].score, rs[2].score];
    assert ScoresIn(rs[..1], ContentIds) == [];
    assert ScoresIn(rs[..2], ContentIds) == [];
    assert ScoresIn(rs[..3], ContentIds) == [];
    assert ScoresIn(rs[..4], ContentIds) == [rs[3].score];
    assert ScoresIn(rs[..5], ContentIds) == [rs[3].score, rs[4].score];
  }

  /** The overall score of both category scores is their mean. */
  lemma OverallOfBoth(format: real, content: real)
    ensures OverallOf(map["format_score" := format, "content_score" := content]) == (format + content) / 2.0
  {
    SumValuesPair("format_score", format, "content_score", content);
  }

  /**
   * Five results in registration order: both families are present, the format
   * score is the mean of the first three scores, the content score the mean of
   * the last two, and the overall score their mean.
   */
  lemma FamilyScores(rs: seq<RuleResult>)
    requires InRegistryOrder(rs)
    ensures var format := (rs[0].score + rs[1].score + rs[2].score) / 3.0;
      var content := (rs[3].score + rs[4].score) / 2.0;
      && AggregateScores(rs) == map["format_score" := format, "content_score" := content]
      && OverallOf(AggregateScores(rs)) == (format + content) / 2.0
  {
    FamilySplit(rs);
    MeanOfThree(rs[0].score, rs[1].score, rs[2].score);
    MeanOfTwo(rs[3].score, rs[4].score);
    OverallOfBoth((rs[0].score + rs[1].score + rs[2].score) / 3.0, (rs[3].score + rs[4].score) / 2.0);
  }

  /** Five results where only the first fails have that first id as the only failure label. */
  lemma OnlyFirstFails(rs: seq<RuleResult>)
    requires |rs| == 5 && !rs[0].passed
    requires rs[1].passed && rs[2].passed && rs[3].passed && rs[4].passed
    ensures FailureLabels(rs) == [rs[0].ruleId]
  {
    assert rs[..5] == rs && rs[..5][..4] == rs[..4] && rs[..4][..3] == rs[..3];
    assert rs[..3][..2] == rs[..2] && rs[..2][..1] == rs[..1] && rs[..1][..0] == [];
    assert FailureLabels(rs[..1]) == [rs[0].ruleId];
    assert FailureLabels(rs[..2]) == [rs[0].ruleId];
    assert FailureLabels(rs[..3]) == [rs[0].ruleId];
    assert FailureLabels(rs[..4]) == [rs[0].ruleId];
  }

  /** The empty request: an empty output and no task type, prompt, reference or metadata. */
  const EmptyRequest := EvaluationRequest(None, None, "", None, None)

  /** On the empty request the empty-output rule fails with 0.0 and every other rule passes with 1.0. */
  lemma EmptyRequestVerdicts(loads: JsonLoads)
    ensures var r := EvaluateEmptyOutput(EmptyRequest); !r.value.passed && r.value.score == 0.0
    ensures var r := JsonFormatVerdict(EmptyRequest, loads); r.value.passed && r.value.score == 1.0
    ensures var r := LengthConstraintVerdict(EmptyRequest); r.Success? && r.value.passed && r.value.score == 1.0
    ensures var r := RequiredKeywordsVerdict(EmptyRequest); r.value.passed && r.value.score == 1.0
    ensures var r := ForbiddenPhrasesVerdict(EmptyRequest); r.value.passed && r.value.score == 1.0
  {
    assert AllSpace(EmptyRequest.output);
    assert !JsonExpected(EmptyRequest);
    assert RequiredOf(EmptyRequest) == [];
    assert Lower("") == "";
    NothingOccursInEmpty(ForbiddenList);
  }

  /** The empty-output rule fails with 0.0; every other rule passes with 1.0. */
  predicate OnlyEmptyOutputFails(evaluate: Verdicts) {
    && evaluate(EmptyOutput).Success? && !evaluate(EmptyOutput).value.passed
    && evaluate(EmptyOutput).value.score == 0.0
    && Passes(evaluate(JsonFormat)) && Passes(evaluate(LengthConstraint))
    && Passes(evaluate(RequiredKeywords)) && Passes(evaluate(ForbiddenPhrases))
  }

  predicate Passes(outcome: Result<RuleResult, RuleError>) {
    outcome.Success? && outcome.value.passed && outcome.value.score == 1.0
  }

  lemma DispatchEmptyOutput(request: EvaluationRequest, loads: JsonLoads)
    ensures Dispatch(request, loads)(EmptyOutput) == EvaluateEmptyOutput(request)
  {
  }

  lemma DispatchJsonFormat(request: EvaluationRequest, loads: JsonLoads)
    ensures Dispatch(request, loads)(JsonFormat) == JsonFormatVerdict(request, loads)
  {
  }

  lemma DispatchLengthConstraint(request: EvaluationRequest, loads: JsonLoads)
    ensures Dispatch(request, loads)(LengthConstraint) == LengthConstraintVerdict(request)
  {
  }

  lemma DispatchRequiredKeywords(request: EvaluationRequest, loads: JsonLoads)
    ensures Dispatch(request, loads)(RequiredKeywords) == RequiredKeywordsVerdict(request)
  {
  }

  lemma DispatchForbiddenPhrases(request: EvaluationRequest, loads: JsonLoads)
    ensures Dispatch(request, loads)(ForbiddenPhrases) == ForbiddenPhrasesVerdict(request)
  {
  }

  /** The registered rules evaluate the empty request that way. */
  lemma EmptyRequestOutcomes(loads: JsonLoads)
    ensures OnlyEmptyOutputFails(Dispatch(EmptyRequest, loads))
  {
    EmptyRequestVerdicts(loads);
    DispatchEmptyOutput(EmptyRequest, loads);
    DispatchJsonFormat(EmptyRequest, loads);
    DispatchLengthConstraint(EmptyRequest, loads);
    DispatchRequiredKeywords(EmptyRequest, loads);
    DispatchForbiddenPhrases(EmptyRequest, loads);
  }

  /** Only the first registered rule failing, with 0.0, while the rest pass with 1.0. */
  predicate OnlyFirstFailsWithZero(rs: seq<RuleResult>) {
    && |rs| == 5 && !rs[0].passed && rs[0].score == 0.0
    && rs[1].passed && rs[1].score == 1.0 && rs[2].passed && rs[2].score == 1.0
    && rs[3].passed && rs[3].score == 1.0 && rs[4].passed && rs[4].score == 1.0
  }

  /** Run over the registered rules, such an evaluation fails only the first result. */
  lemma OnlyEmptyOutputFailsResults(evaluate: Verdicts)
    requires OnlyEmptyOutputFails(evaluate)
    ensures OnlyFirstFailsWithZero(RunAll(Registry, evaluate))
  {
    RunAllOutcomes(Registry, evaluate);
    assert Registry[0] == EmptyOutput && Registry[1] == JsonFormat && Registry[2] == LengthConstraint;
    assert Registry[3] == RequiredKeywords && Registry[4] == ForbiddenPhrases;
  }

  /**
   * When only "empty_output" fails, with 0.0, and the other four pass with 1.0,
   * it is the only failure label, the format score is 2/3, the content score 1
   * and the overall score 5/6.
   */
  lemma EmptyOutputScores(rs: seq<RuleResult>)
    requires InRegistryOrder(rs) && OnlyFirstFailsWithZero(rs)
    ensures FailureLabels(rs) == ["empty_output"]
    ensures AggregateScores(rs) == map["format_score" := 2.0 / 3.0, "content_score" := 1.0]
    ensures OverallOf(AggregateScores(rs)) == 5.0 / 6.0
  {
    OnlyFirstFails(rs);
    FamilyScores(rs);
  }

  /** An empty output with no prompt: only "empty_output" fails, scoring 2/3 for format, 1 for content, 5/6 overall. */
  lemma EmptyOutputScenario(loads: JsonLoads)
    ensures var rs := RunAll(Registry, Dispatch(EmptyRequest, loads));
      && FailureLabels(rs) == ["empty_output"]
      && AggregateScores(rs) == map["format_score" := 2.0 / 3.0, "content_score" := 1.0]
      && OverallOf(AggregateScores(rs)) == 5.0 / 6.0
  {
    var evaluate := Dispatch(EmptyRequest, loads);
    DispatchStamps(EmptyRequest, loads);
    EmptyRequestOutcomes(loads);
    RegistryOrder(evaluate);
    OnlyEmptyOutputFailsResults(evaluate);
    EmptyOutputScores(RunAll(Registry, evaluate));
  }

  // ---------------------------------------------------------------------
  // The evaluator object

  /** Python's `s[:n]`. */
  function Prefix(s: string, n: nat): (p: string)
    ensures |p| == if |s| < n then |s| else n
    ensures p <= s
  {
    if |s| < n then s else s[..n]
  }

  class Evaluator {
    /** The rules, fixed when the evaluator is built. */
    const rules: seq<Rule>

    /** `__init__`: registers the five rules in their fixed order. */
    constructor ()
      ensures rules == Registry
    {
      rules := Registry;
    }

    /** `_run_rules`: one result per rule, in order; a rule that raises is replaced by a failed result. */
    method RunRules(request: EvaluationRequest, loads: JsonLoads) returns (results: seq<RuleResult>)
      ensures results == RunAll(rules, Dispatch(request, loads))
    {
      ghost var evaluate := Dispatch(request, loads);
      results := [];
      for i := 0 to |rules|
        invariant results == RunAll(rules[..i], evaluate)
      {
        RunAllExtend(rules, i, evaluate);
        var outcome := RunRule(rules[i], request, loads);
        assert outcome == evaluate(rules[i]);
        var result: RuleResult;
        match outcome {
          case Success(r) =>
            result := r;
          case Failure(e) =>
            result := RuleResult(rules[i].Id(), rules[i].Name(), false, 0.0, "Rule execution failed: " + e.Message());
        }
        assert result == Absorb(rules[i], outcome);
        results := results + [result];
      }
      assert rules[..|rules|] == rules;
    }

    /** `_calculate_overall_score`: sums the category scores and divides by their number. */
    method CalculateOverallScore(scores: map<string, real>) returns (overall: real)
      ensures overall == OverallOf(scores)
    {
      if |scores| == 0 {
        return 0.0;
      }
      var total := 0.0;
      var rest := scores;
      while |rest| != 0
        invariant total + SumValues(rest) == SumValues(scores)
        decreases |rest|
      {
        var k :| k in rest;
        SumValuesRemove(rest, k);
        total := total + rest[k];
        RemoveOneKey(rest, k);
        rest := rest - {k};
      }
      overall := total / |scores| as real;
    }

    /** `_identify_failures`: the ids of the results that did not pass, in order. */
    method IdentifyFailures(results: seq<RuleResult>) returns (failures: seq<string>)
      ensures failures == FailureLabels(results)
    {
      failures := [];
      for i := 0 to |results|
        invariant failures == FailureLabels(results[..i])
      {
        assert results[..i + 1][..i] == results[..i];
        if !results[i].passed {
          failures := failures + [results[i].ruleId];
        }
      }
      assert results[..|results|] == results;
    }

    /** `_generate_explanations`: each failing id mapped to its explanation (the labels are not consulted). */
    method GenerateExplanations(results: seq<RuleResult>, failureLabels: seq<string>)
      returns (explanations: map<string, string>)
      ensures explanations == ExplanationsOf(results)
    {
      explanations := map[];
      for i := 0 to |results|
        invariant explanations == ExplanationsOf(results[..i])
      {
        assert results[..i + 1][..i] == results[..i];
        if !results[i].passed {
          explanations := explanations[results[i].ruleId := results[i].explanation];
        }
      }
      assert results[..|results|] == results;
    }

    /**
     * `evaluate`: a fresh id "eval_" + the first 12 characters of the given uuid
     * hex, the given clock reading, the rule results, their aggregation and
     * failures, and the request carried through unchanged.
     */
    method Evaluate(request: EvaluationRequest, uuidHex: string, now: int, loads: JsonLoads)
      returns (response: EvaluationResponse)
      ensures response.evaluationId == "eval_" + Prefix(uuidHex, 12)
      ensures response.timestamp == now
      ensures response.ruleResults == RunAll(rules, Dispatch(request, loads))
      ensures response.scores == AggregateScores(response.ruleResults)
      ensures response.overallScore == OverallOf(response.scores)
      ensures response.failureLabels == FailureLabels(response.ruleResults)
      ensures response.explanations == ExplanationsOf(response.ruleResults)
      ensures response.inputData == request
    {
      var evalId := "eval_" + Prefix(uuidHex, 12);
      var ruleResults := RunRules(request, loads);
      var scores := AggregateScores(ruleResults);
      var overallScore := CalculateOverallScore(scores);
      var failureLabels := IdentifyFailures(ruleResults);
      var explanations := GenerateExplanations(ruleResults, failureLabels);
      OverallBounds(scores);
      var built := MakeResponse(evalId, now, scores, overallScore, failureLabels, explanations, ruleResults, request);
      response := built.value;
    }
  }
}

=== FILE: format_rules.dfy ===
/**
 * The format family: EmptyOutput, JsonFormat and LengthConstraint.
 * Each rule's evaluation is given as a function returning either a rule
 * result or the exception the evaluation raises.
 */
module FormatRules {
  import opened Wrappers
  import opened Text
  import opened Schemas
  import opened BaseRule

  // ---------------------------------------------------------------------
  // EmptyOutputRule

  /** The output fails exactly when it is blank; otherwise it passes and the explanation gives the trimmed length. */
  function EvaluateEmptyOutput(request: EvaluationRequest): (r: Result<RuleResult, RuleError>)
    ensures r.Success? && (r.value.ruleId == EmptyOutput.Id() && r.value.ruleName == EmptyOutput.Name() && r.value.explanation != "")
    ensures r.value.passed <==> !AllSpace(request.output)
    ensures r.value.score == if r.value.passed then 1.0 else 0.0
    ensures r.value.passed ==>
      r.value.explanation == "output contains " + NatToString(|Strip(request.output)|) + " characters"
  {
    StripEmptyIffAllSpace(request.output);
    var output := Strip(request.output);
    if |output| == 0 then
      CreateResult(EmptyOutput, false, 0.0, "output is empty or contians only whitespaces")
    else
      CreateResult(EmptyOutput, true, 1.0, "output contains " + NatToString(|output|) + " characters")
  }

  // ---------------------------------------------------------------------
  // JSONFormatRule

  /** What the JSON decoder makes of a text: the rendering of the parsed value, or the decoder's error message. */
  datatype JsonOutcome = Parsed(rendered: string) | DecodeError(message: string)

  /** The JSON decoder, whose internals are not part of this model. */
  type JsonLoads = string -> JsonOutcome

  /** The prompt cues that announce a JSON answer. */
  const JsonCues: seq<string> := ["json", "return {", "output {", "format {"]

  /** JSON is expected when the task type mentions "json" or the prompt carries one of the cues, case-insensitively. */
  predicate JsonExpected(request: EvaluationRequest) {
    || (request.taskType.Some? && request.taskType.value != "" && Contains(Lower(request.taskType.value), "json"))
    || (request.HasPrompt() && exists i :: 0 <= i < |JsonCues| && Contains(Lower(request.prompt.value), JsonCues[i]))
  }

  /** `_expects_json`: checks the task type, then scans the cues, stopping at the first one found. */
  method ExpectsJson(request: EvaluationRequest) returns (expected: bool)
    ensures expected == JsonExpected(request)
  {
    if request.taskType.Some? && request.taskType.value != "" && Contains(Lower(request.taskType.value), "json") {
      return true;
    }
    if request.HasPrompt() {
      var promptLower := Lower(request.prompt.value);
      var i := 0;
      while i < |JsonCues|
        invariant 0 <= i <= |JsonCues|
        invariant forall j :: 0 <= j < i ==> !Contains(promptLower, JsonCues[j])
      {
        if Contains(promptLower, JsonCues[i]) {
          return true;
        }
        i := i + 1;
      }
    }
    return false;
  }

  /** The emptiness tests in `_expects_json` change nothing: an empty text contains none of the cues. */
  lemma JsonExpectedWithoutTruthiness(request: EvaluationRequest)
    ensures JsonExpected(request) <==>
      || (request.taskType.Some? && Contains(Lower(request.taskType.value), "json"))
      || (request.prompt.Some? && exists i :: 0 <= i < |JsonCues| && Contains(Lower(request.prompt.value), JsonCues[i]))
  {
    if request.prompt.Some? && request.prompt.value == "" {
      forall i | 0 <= i < |JsonCues| ensures !Contains(Lower(request.prompt.value), JsonCues[i]) {
        LongerIsNotContained(Lower(request.prompt.value), JsonCues[i]);
      }
    }
  }

  /**
   * The JSON rule: passes with 1.0 when no JSON is expected; otherwise passes with 1.0
   * exactly when the trimmed output parses, and fails with 0.0 and the decoder's message.
   */
  function JsonFormatVerdict(request: EvaluationRequest, loads: JsonLoads): (r: Result<RuleResult, RuleError>)
    ensures r.Success? && (r.value.ruleId == JsonFormat.Id() && r.value.ruleName == JsonFormat.Name() && r.value.explanation != "")
    ensures r.value.passed <==> !JsonExpected(request) || loads(Strip(request.output)).Parsed?
    ensures r.value.score == if r.value.passed then 1.0 else 0.0
    ensures !r.value.passed ==>
      r.value.explanation == "Invalid JSON format: " + loads(Strip(request.output)).message
  {
    if !JsonExpected(request) then
      CreateResult(JsonFormat, true, 1.0, "no JSON format expected for this task")
    else
      match loads(Strip(request.output))
      case Parsed(rendered) =>
        CreateResult(JsonFormat, true, 1.0, "Valid JSON with " + NatToString(|rendered|) + " characters")
      case DecodeError(message) =>
        CreateResult(JsonFormat, false, 0.0, "Invalid JSON format: " + message)
  }

  /** JSONFormatRule.evaluate: decides whether JSON is expected, then tries the decoder. */
  method EvaluateJsonFormat(request: EvaluationRequest, loads: JsonLoads) returns (r: Result<RuleResult, RuleError>)
    ensures r == JsonFormatVerdict(request, loads)
  {
    var expected := ExpectsJson(request);
    if !expected {
      return CreateResult(JsonFormat, true, 1.0, "no JSON format expected for this task");
    }
    var output := Strip(request.output);
    var outcome := loads(output);
    if outcome.Parsed? {
      r := CreateResult(JsonFormat, true, 1.0, "Valid JSON with " + NatToString(|outcome.rendered|) + " characters");
    } else {
      r := CreateResult(JsonFormat, false, 0.0, "Invalid JSON format: " + outcome.message);
    }
  }

  /** When no JSON is expected the output is never looked at. */
  lemma JsonIgnoresOutputWhenNotExpected(request: EvaluationRequest, other: string, loads: JsonLoads)
    requires !JsonExpected(request)
    ensures JsonFormatVerdict(request.(output := other), loads) == JsonFormatVerdict(request, loads)
  {
  }

  // ---------------------------------------------------------------------
  // LengthConstraintRule

  /** The unit a length limit is stated in. */
  datatype Unit = WordsUnit | CharactersUnit | SentencesUnit
  {
    /** The unit's name in explanations. */
    function Name(): string {
      match this
      case WordsUnit => "words"
      case CharactersUnit => "characters"
      case SentencesUnit => "sentences"
    }

    /** The literal that must follow the number (the plural "s" is optional). */
    function Stem(): string {
      match this
      case WordsUnit => "word"
      case CharactersUnit => "character"
      case SentencesUnit => "sentence"
    }
  }

  /** The pattern `(\d+)\s*<stem>` matches at position i of s. */
  predicate NumberBefore(s: string, i: int, stem: string) {
    0 <= i < |s| && IsDigit(s[i]) &&
    var j := i + SpanWhile(s[i..], IsDigit);
    var k := j + SpanWhile(s[j..], IsSpace);
    StartsAt(s, stem, k)
  }

  predicate Mentions(s: string, stem: string) {
    exists q :: 0 <= q < |s| && NumberBefore(s, q, stem)
  }

  /** i is where a left-to-right search for the pattern finds it. */
  predicate IsLeftmost(s: string, i: int, stem: string) {
    NumberBefore(s, i, stem) && forall q :: 0 <= q < i ==> !NumberBefore(s, q, stem)
  }

  /** The digits of the number starting at position i. */
  function NumberAt(s: string, i: nat): (d: string)
    requires i <= |s|
    ensures forall k :: 0 <= k < |d| ==> IsDigit(d[k])
  {
    s[i..i + SpanWhile(s[i..], IsDigit)]
  }

  /** `re.search` from position `from`: the first position at which the pattern matches. */
  function FindNumber(s: string, stem: string, from: nat): (p: Option<nat>)
    ensures p.Some? ==> from <= p.value && NumberBefore(s, p.value, stem)
    ensures p.Some? ==> forall q :: from <= q < p.value ==> !NumberBefore(s, q, stem)
    ensures p.None? ==> forall q :: from <= q ==> !NumberBefore(s, q, stem)
    decreases |s| - from
  {
    if from >= |s| then None
    else if NumberBefore(s, from, stem) then Some(from)
    else FindNumber(s, stem, from + 1)
  }

  /** The pattern for one unit, applied to the lower-cased prompt: the limit of its leftmost match. */
  function SearchLimit(s: string, u: Unit): (limit: Option<nat>)
    ensures limit.None? <==> !Mentions(s, u.Stem())
    ensures limit.Some? ==> exists p :: IsLeftmost(s, p, u.Stem()) && limit.value == DigitsValue(NumberAt(s, p))
  {
    match FindNumber(s, u.Stem(), 0)
    case None => None
    case Some(p) => assert IsLeftmost(s, p, u.Stem()); Some(DigitsValue(NumberAt(s, p)))
  }

  /**
   * `_extract_length_constraint`: tries words, then characters, then sentences
   * on the lower-cased prompt; the first unit whose pattern matches wins.
   */
  function ExtractLengthConstraint(prompt: string): (c: Option<(Unit, nat)>)
    ensures c.None? <==> && !Mentions(Lower(prompt), WordsUnit.Stem())
                         && !Mentions(Lower(prompt), CharactersUnit.Stem())
                         && !Mentions(Lower(prompt), SentencesUnit.Stem())
    ensures c.Some? ==> Mentions(Lower(prompt), c.value.0.Stem())
    ensures c.Some? && c.value.0 != WordsUnit ==> !Mentions(Lower(prompt), WordsUnit.Stem())
    ensures c.Some? && c.value.0 == SentencesUnit ==> !Mentions(Lower(prompt), CharactersUnit.Stem())
    ensures c.Some? ==> exists p :: IsLeftmost(Lower(prompt), p, c.value.0.Stem())
                                   && c.value.1 == DigitsValue(NumberAt(Lower(prompt), p))
  {
    var promptLower := Lower(prompt);
    match SearchLimit(promptLower, WordsUnit)
    case Some(n) => Some((WordsUnit, n))
    case None =>
      match SearchLimit(promptLower, CharactersUnit)
      case Some(n) => Some((CharactersUnit, n))
      case None =>
        match SearchLimit(promptLower, SentencesUnit)
        case Some(n) => Some((SentencesUnit, n))
        case None => None
  }

  /** `_measure_output`: tokens, raw characters, or non-blank sentence pieces. */
  function Measure(output: string, u: Unit): (n: nat)
    ensures u == CharactersUnit ==> n == |output|
    ensures u == WordsUnit ==> (n == 0 <==> AllSpace(output))
    ensures u == SentencesUnit ==> (n == 0 <==> OnlySeparators(output))
  {
    NoWordsIffBlank(output);
    NoSentencesIffOnlySeparators(output);
    match u
    case WordsUnit => |Words(output)|
    case CharactersUnit => |output|
    case SentencesUnit => SentenceCount(output)
  }

  /** The partial credit for exceeding a limit: below 1, and 0 once the output is twice the limit. */
  function ExcessScore(actual: nat, limit: nat): (s: real)
    requires 0 < limit < actual
    ensures 0.0 <= s < 1.0
    ensures s == 0.0 <==> actual >= 2 * limit
  {
    var excess := (actual - limit) as real / limit as real;
    RatioAtLeastOne((actual - limit) as real, limit as real);
    if 1.0 - excess > 0.0 then 1.0 - excess else 0.0
  }

  lemma RatioAtLeastOne(d: real, l: real)
    requires l > 0.0 && d > 0.0
    ensures d / l > 0.0
    ensures d / l >= 1.0 <==> d >= l
  {
    var q := d / l;
    assert q * l == d;
    assert (q - 1.0) * l == d - l;
    if q >= 1.0 {
      assert (q - 1.0) * l >= 0.0;
    } else {
      assert (1.0 - q) * l > 0.0;
    }
  }

  /** A longer output never scores better. */
  lemma ExcessScoreMonotone(a: nat, b: nat, limit: nat)
    requires 0 < limit < a <= b
    ensures ExcessScore(b, limit) <= ExcessScore(a, limit)
  {
    var l := limit as real;
    assert (a - limit) as real / l <= (b - limit) as real / l;
  }

  /** Six words against a limit of five score 0.8. */
  lemma ExcessScoreExample()
    ensures ExcessScore(6, 5) == 0.8
  {
  }

  /** The constraint the rule checks: none without a prompt, else whatever the prompt states. */
  function LengthLimit(request: EvaluationRequest): Option<(Unit, nat)> {
    if request.HasPrompt() then ExtractLengthConstraint(request.prompt.value) else None
  }

  /**
   * LengthConstraintRule.evaluate: passes with 1.0 without a constraint or within it;
   * over the limit it fails with ExcessScore, except that a limit of 0 raises a division by zero.
   */
  function LengthConstraintVerdict(request: EvaluationRequest): (r: Result<RuleResult, RuleError>)
    ensures r.Success? ==> (r.value.ruleId == LengthConstraint.Id() && r.value.ruleName == LengthConstraint.Name() && r.value.explanation != "")
    ensures LengthLimit(request).None? ==> r.Success? && r.value.passed && r.value.score == 1.0
    ensures LengthLimit(request).Some? ==>
      var (u, limit) := LengthLimit(request).value;
      var actual := Measure(request.output, u);
      && (actual <= limit ==> r.Success? && r.value.passed && r.value.score == 1.0)
      && (limit < actual && limit > 0 ==> r.Success? && !r.value.passed && r.value.score == ExcessScore(actual, limit))
      && (limit < actual && limit == 0 ==> r == Failure(ZeroDivisionError))
  {
    if !request.HasPrompt() then
      CreateResult(LengthConstraint, true, 1.0, "No prompt provided to check constraints")
    else
      match ExtractLengthConstraint(request.prompt.value)
      case None => CreateResult(LengthConstraint, true, 1.0, "No length constraint detected in prompt")
      case Some((u, limit)) =>
        var actual := Measure(request.output, u);
        if actual <= limit then
          CreateResult(LengthConstraint, true, 1.0,
            "Output meets the " + u.Name() + " constraint of " + NatToString(limit) + ". Actual: " + NatToString(actual))
        else if limit == 0 then
          Failure(ZeroDivisionError)
        else
          CreateResult(LengthConstraint, false, ExcessScore(actual, limit),
            "output has " + NatToString(actual) + " " + u.Name() + ", exceeds limit of " + NatToString(limit))
  }

  /** The rule raises exactly when the limit is 0 and the output is not empty in that unit. */
  lemma LengthRaisesOnlyOnZeroLimit(request: EvaluationRequest)
    ensures LengthConstraintVerdict(request).Failure? <==>
      LengthLimit(request).Some? && LengthLimit(request).value.1 == 0
      && Measure(request.output, LengthLimit(request).value.0) > 0
    ensures LengthConstraintVerdict(request).Failure? ==> LengthConstraintVerdict(request).error == ZeroDivisionError
  {
  }
}

=== FILE: schemas.dfy ===
/**
 * The records exchanged with the evaluator: the request under evaluation,
 * one result per rule, and the response. Field validation (the [0, 1]
 * bounds on scores) is modelled by the smart constructors MakeRuleResult and
 * MakeResponse, which fail the way record construction fails when a bound
 * is violated.
 */
module Schemas {
  import opened Wrappers

  /** A score between 0.0 and 1.0 inclusive. */
  type Score = r: real | 0.0 <= r <= 1.0 witness 0.0

  /**
   * The input record. Only `output` is required; every other field may be
   * absent. `meta` holds arbitrary annotations, kept here as text.
   */
  datatype EvaluationRequest = EvaluationRequest(
    taskType: Option<string>,
    prompt: Option<string>,
    output: string,
    reference: Option<string>,
    meta: Option<map<string, string>>)
  {
    /** Python truthiness of `prompt`: present and non-empty. */
    predicate HasPrompt() {
      prompt.Some? && prompt.value != ""
    }
  }

  /** The verdict of one rule on one request. */
  datatype RuleResult = RuleResult(
    ruleId: string,
    ruleName: string,
    passed: bool,
    score: Score,
    explanation: string)

  /** The answer to one evaluation call. `timestamp` is an opaque clock reading. */
  datatype EvaluationResponse = EvaluationResponse(
    evaluationId: string,
    timestamp: int,
    scores: map<string, real>,
    overallScore: Score,
    failureLabels: seq<string>,
    explanations: map<string, string>,
    ruleResults: seq<RuleResult>,
    inputData: EvaluationRequest)

  /** The message carried by a validation failure. */
  const ScoreOutOfRange := "score must lie between 0.0 and 1.0"

  /** Builds a rule result, failing validation when the score is outside [0, 1]. */
  function MakeRuleResult(ruleId: string, ruleName: string, passed: bool, score: real, explanation: string)
    : (r: Result<RuleResult, string>)
    ensures r.Success? <==> 0.0 <= score <= 1.0
    ensures r.Success? ==> (r.value.ruleId == ruleId && r.value.ruleName == ruleName
      && r.value.passed == passed && r.value.score == score && r.value.explanation == explanation)
  {
    if 0.0 <= score <= 1.0 then Success(RuleResult(ruleId, ruleName, passed, score, explanation))
    else Failure(ScoreOutOfRange)
  }

  /** Builds a response, failing validation when the overall score is outside [0, 1]. */
  function MakeResponse(
    evaluationId: string, timestamp: int, scores: map<string, real>, overallScore: real,
    failureLabels: seq<string>, explanations: map<string, string>,
    ruleResults: seq<RuleResult>, inputData: EvaluationRequest)
    : (r: Result<EvaluationResponse, string>)
    ensures r.Success? <==> 0.0 <= overallScore <= 1.0
    ensures r.Success? ==> (r.value.evaluationId == evaluationId && r.value.timestamp == timestamp
      && r.value.scores == scores && r.value.overallScore == overallScore
      && r.value.failureLabels == failureLabels && r.value.explanations == explanations
      && r.value.ruleResults == ruleResults && r.value.inputData == inputData)
  {
    if 0.0 <= overallScore <= 1.0 then
      Success(EvaluationResponse(evaluationId, timestamp, scores, overallScore,
                                 failureLabels, explanations, ruleResults, inputData))
    else Failure(ScoreOutOfRange)
  }
}

=== FILE: text.dfy ===
/**
 * The string operations the rules rely on: ASCII lower-casing, Python's
 * whitespace trimming and splitting, substring search, decimal rendering.
 * Characters are treated as ASCII; whitespace is the ASCII part of what
 * Python's str.isspace accepts.
 */
module Text {

  /** Python's whitespace, restricted to ASCII: space, \t \n \v \f \r and \x1c..\x1f. */
  predicate IsSpace(c: char) {
    c == ' ' || (9 <= c as int <= 13) || (0x1c <= c as int <= 0x1f)
  }

  predicate IsDigit(c: char) {
    '0' <= c <= '9'
  }

  function LowerChar(c: char): char {
    if 'A' <= c <= 'Z' then (c as int + 32) as char else c
  }

  /** str.lower() on ASCII text: same length, upper-case letters mapped down. */
  function Lower(s: string): (r: string)
    ensures |r| == |s|
    ensures forall i :: 0 <= i < |s| ==> r[i] == LowerChar(s[i])
  {
    seq(|s|, i requires 0 <= i < |s| => LowerChar(s[i]))
  }

  /** `sub` occurs in `s` starting at position i. */
  predicate StartsAt(s: string, sub: string, i: int) {
    0 <= i && i + |sub| <= |s| && s[i..i + |sub|] == sub
  }

  /** Python's `sub in s`; the empty string occurs in every string. */
  predicate Contains(s: string, sub: string) {
    exists i :: 0 <= i <= |s| && StartsAt(s, sub, i)
  }

  lemma LongerIsNotContained(s: string, sub: string)
    requires |s| < |sub|
    ensures !Contains(s, sub)
  {
  }

  /** Length of the longest prefix of s whose characters all satisfy p. */
  function SpanWhile(s: string, p: char -> bool): (n: nat)
    ensures n <= |s|
    ensures forall i :: 0 <= i < n ==> p(s[i])
    ensures n < |s| ==> !p(s[n])
  {
    if s == [] || !p(s[0]) then 0 else 1 + SpanWhile(s[1..], p)
  }

  /** Drops the leading characters satisfying p. */
  function TrimStart(s: string, p: char -> bool): (r: string)
    ensures |r| <= |s| && r == s[|s| - |r|..]
    ensures r == [] || !p(r[0])
    ensures forall i :: 0 <= i < |s| - |r| ==> p(s[i])
  {
    s[SpanWhile(s, p)..]
  }

  /** Drops the trailing characters satisfying p. */
  function TrimEnd(s: string, p: char -> bool): (r: string)
    ensures |r| <= |s| && r == s[..|r|]
    ensures r == [] || !p(r[|r| - 1])
    ensures forall i :: |r| <= i < |s| ==> p(s[i])
  {
    if s == [] || !p(s[|s| - 1]) then s else TrimEnd(s[..|s| - 1], p)
  }

  /** Python's str.strip(chars) with the character set given as a predicate. */
  function StripBy(s: string, p: char -> bool): string {
    TrimEnd(TrimStart(s, p), p)
  }

  /** Python's str.strip(): surrounding whitespace removed. */
  function Strip(s: string): string {
    StripBy(s, IsSpace)
  }

  predicate AllSpace(s: string) {
    forall i :: 0 <= i < |s| ==> IsSpace(s[i])
  }

  /** A string strips to nothing exactly when it is all whitespace. */
  lemma StripEmptyIffAllSpace(s: string)
    ensures Strip(s) == [] <==> AllSpace(s)
  {
  }

  /** Python's `str.split()` with no argument: the maximal runs of non-whitespace. */
  function Words(s: string): (ws: seq<string>)
    ensures forall k :: 0 <= k < |ws| ==> ws[k] != [] && !exists i :: 0 <= i < |ws[k]| && IsSpace(ws[k][i])
    decreases |s|
  {
    if s == [] then []
    else if IsSpace(s[0]) then Words(s[1..])
    else
      var n := SpanWhile(s, c => !IsSpace(c));
      [s[..n]] + Words(s[n..])
  }

  /** There are no words exactly when the text is blank. */
  lemma {:induction false} NoWordsIffBlank(s: string)
    ensures Words(s) == [] <==> AllSpace(s)
    decreases |s|
  {
    if s == [] {
    } else if IsSpace(s[0]) {
      NoWordsIffBlank(s[1..]);
      assert AllSpace(s) <==> AllSpace(s[1..]) by {
        if AllSpace(s[1..]) {
          forall i | 0 <= i < |s| ensures IsSpace(s[i]) {
            if i > 0 { assert s[i] == s[1..][i - 1]; }
          }
        }
      }
    } else {
    }
  }

  /** `re.split(r"[.!?]+", s)`: the pieces between runs of sentence terminators. */
  predicate IsTerminator(c: char) {
    c == '.' || c == '!' || c == '?'
  }

  predicate InSentence(c: char) {
    !IsTerminator(c)
  }

  /** Where the first piece ends: at the first terminator, or at the end of the text. */
  function PieceEnd(s: string): (n: nat)
    ensures n <= |s|
    ensures forall i :: 0 <= i < n ==> !IsTerminator(s[i])
    ensures n < |s| ==> IsTerminator(s[n])
  {
    SpanWhile(s, InSentence)
  }

  /** Where the next piece starts: after the whole run of terminators that ends the first. */
  function NextPiece(s: string): (m: nat)
    requires PieceEnd(s) < |s|
    ensures PieceEnd(s) < m <= |s|
    ensures forall i :: PieceEnd(s) <= i < m ==> IsTerminator(s[i])
  {
    var n := PieceEnd(s);
    var k := SpanWhile(s[n..], IsTerminator);
    assert s[n..][0] == s[n];
    assert forall i :: n <= i < n + k ==> s[i] == s[n..][i - n];
    n + k
  }

  function SplitTerminators(s: string): (parts: seq<string>)
    decreases |s|
  {
    if PieceEnd(s) == |s| then [s]
    else [s[..PieceEnd(s)]] + SplitTerminators(s[NextPiece(s)..])
  }

  /** How many of the pieces are not blank. */
  function CountNonBlank(parts: seq<string>): (n: nat)
    ensures n <= |parts|
  {
    if parts == [] then 0
    else (if Strip(parts[0]) != [] then 1 else 0) + CountNonBlank(parts[1..])
  }

  /** The sentence count of `_measure_output`. */
  function SentenceCount(s: string): nat {
    CountNonBlank(SplitTerminators(s))
  }

  /** Nothing but whitespace and sentence terminators. */
  predicate OnlySeparators(s: string) {
    forall i :: 0 <= i < |s| ==> IsSpace(s[i]) || IsTerminator(s[i])
  }

  /** Cutting a text in three: every part holds only separators exactly when the whole does. */
  lemma OnlySeparatorsSplit(s: string, n: nat, m: nat)
    requires n <= m <= |s|
    ensures OnlySeparators(s) <==> OnlySeparators(s[..n]) && OnlySeparators(s[n..m]) && OnlySeparators(s[m..])
  {
    if OnlySeparators(s[..n]) && OnlySeparators(s[n..m]) && OnlySeparators(s[m..]) {
      forall i | 0 <= i < |s| ensures IsSpace(s[i]) || IsTerminator(s[i]) {
        if i < n {
          assert s[i] == s[..n][i];
        } else if i < m {
          assert s[i] == s[n..m][i - n];
        } else {
          assert s[i] == s[m..][i - m];
        }
      }
    }
  }

  /** A piece without terminators is blank exactly when it holds only separators. */
  lemma BlankPieceIffOnlySeparators(head: string)
    requires forall i :: 0 <= i < |head| ==> !IsTerminator(head[i])
    ensures Strip(head) == [] <==> OnlySeparators(head)
  {
    StripEmptyIffAllSpace(head);
  }

  /** The run of terminators between two pieces holds only separators. */
  lemma TerminatorRun(s: string)
    requires PieceEnd(s) < |s|
    ensures OnlySeparators(s[PieceEnd(s)..NextPiece(s)])
  {
    var n, m := PieceEnd(s), NextPiece(s);
    assert forall i :: 0 <= i < m - n ==> s[n..m][i] == s[n + i];
  }

  lemma CountNonBlankCons(head: string, rest: seq<string>)
    ensures CountNonBlank([head] + rest) == (if Strip(head) != [] then 1 else 0) + CountNonBlank(rest)
  {
    assert ([head] + rest)[1..] == rest;
  }

  /** One step of the sentence count: the first piece, then the text after the run of terminators. */
  lemma SentenceCountStep(s: string)
    requires PieceEnd(s) < |s|
    ensures SentenceCount(s) == (if Strip(s[..PieceEnd(s)]) != [] then 1 else 0) + SentenceCount(s[NextPiece(s)..])
    ensures SentenceCount(s) == 0 <==> Strip(s[..PieceEnd(s)]) == [] && SentenceCount(s[NextPiece(s)..]) == 0
  {
    CountNonBlankCons(s[..PieceEnd(s)], SplitTerminators(s[NextPiece(s)..]));
  }

  /** A text without terminators is one piece, counted when it is not blank. */
  lemma SentenceCountWhole(s: string)
    requires PieceEnd(s) == |s|
    ensures SentenceCount(s) == (if Strip(s) != [] then 1 else 0)
  {
    CountNonBlankCons(s, []);
    assert [s] + [] == [s];
  }

  /** A text has no sentences exactly when it holds nothing but whitespace and terminators. */
  lemma {:induction false} NoSentencesIffOnlySeparators(s: string)
    ensures SentenceCount(s) == 0 <==> OnlySeparators(s)
    decreases |s|
  {
    var n := PieceEnd(s);
    BlankPieceIffOnlySeparators(s[..n]);
    if n == |s| {
      assert s[..n] == s;
      SentenceCountWhole(s);
    } else {
      var m := NextPiece(s);
      SentenceCountStep(s);
      TerminatorRun(s);
      NoSentencesIffOnlySeparators(s[m..]);
      OnlySeparatorsSplit(s, n, m);
    }
  }

  /** Python's `sep.join(parts)`. */
  function Join(parts: seq<string>, sep: string): string {
    if parts == [] then ""
    else if |parts| == 1 then parts[0]
    else parts[0] + sep + Join(parts[1..], sep)
  }

  /** The test "is not x", as a value that can be passed around. */
  function Unlike(x: char): char -> bool {
    c => c != x
  }

  /** Python's `s.split(sep)` for a single-character separator: always at least one piece. */
  function SplitOn(s: string, sep: char): (parts: seq<string>)
    ensures |parts| >= 1
    ensures forall k :: 0 <= k < |parts| ==> sep !in parts[k]
    decreases |s|
  {
    var n := SpanWhile(s, Unlike(sep));
    if n == |s| then [s] else [s[..n]] + SplitOn(s[n + 1..], sep)
  }

  function DigitChar(d: nat): char
    requires d < 10
  {
    ('0' as int + d) as char
  }

  /** Decimal rendering of a natural number, as `str(n)`. */
  function NatToString(n: nat): (s: string)
    ensures |s| >= 1
    ensures forall i :: 0 <= i < |s| ==> IsDigit(s[i])
  {
    if n < 10 then [DigitChar(n)] else NatToString(n / 10) + [DigitChar(n % 10)]
  }

  /** `int(digits)` for a string of decimal digits (leading zeros allowed). */
  function DigitsValue(d: string): nat
    requires forall i :: 0 <= i < |d| ==> IsDigit(d[i])
  {
    if d == [] then 0 else 10 * DigitsValue(d[..|d| - 1]) + DigitValue(d[|d| - 1])
  }

  function DigitValue(c: char): (v: nat)
    requires IsDigit(c)
    ensures v < 10
  {
    c as int - '0' as int
  }
}

=== FILE: wrappers.dfy ===
/** Option and Result, used for absent request fields and for the exceptions a rule can raise. */
module Wrappers {

  datatype Option<+T> = None | Some(value: T)

  datatype Result<+R, +E> = Success(value: R) | Failure(error: E)
}
